=== FILE: README.md ===
# Order store — a Dafny model

This project models the core of a small order-management service. The service
keeps one table of orders. Each order has an integer id, a name, an optional
description, a creation date and a status. The service offers:

- single-record create, read, update and delete;
- a bulk status update that succeeds for some ids and reports the others;
- per-status statistics;
- a colour-coded spreadsheet report;
- export and import through XML and through HDF5.

Both importers merge records into the table by primary key and commit once at
the end.

The model works on values, not on a database:

- `OrderStore.Store` is a map from primary key to record.
- Every operation takes a store and returns a `Reply`: the store after the
  operation, together with its result or its error.
- A failed operation returns the store it was given, because the session
  rolls back.
- Listing returns the records in ascending primary-key order.
- The clock, the auto-increment id and date parsing/printing come in as
  parameters: `now`, `newId` and `DateFormat(show, parse)`.
- The round-trip theorems assume `RoundTrips(fmt)`, meaning that parsing a
  printed date gives back the same date.

Modules, in dependency order:

- `Wrappers`: `Option` and `Result`.
- `Text`: decimal printing and `int()` parsing of integers.
- `Orders`: the entity, its column limits and `to_dict`.
- `OrderStore`: the table, its listing, and merge-by-id with one commit.
- `Repository`: CRUD and the bulk status update.
- `Statistics`: `value_counts` over the status column.
- `Report`: the sheet rows and their fills.
- `XmlCodec`: the XML export and import.
- `Hdf5Codec`: the HDF5 export and import.

Several functions exist in two copies. `src/routes/services.py` repeats
`get_order_statistics`, `generate_report_xlsx` and the four codec functions of
`src/routes/services/`, line for line. `src/routes/repository.py` repeats
`add_order` and `get_orders`. Each pair is modelled once. The table below cites
both copies, each through a different member.

## Model

| member | source | states |
|---|---|---|
| `Orders.ToDict` | src/database/models.py:38-51 | `to_dict` has the five keys `id`, `name`, `description`, `creation_date`, `status` in that order, and the record can be rebuilt from its values alone |
| `Orders.FromCells` | src/routes/services/hdf5_service.py:65-72 | building an `Order` from a row fails when `name` or `status` is null (NOT NULL); when it succeeds, the record's own values are exactly that row |
| `Orders.CellsRoundTrip` | src/database/models.py:19-36 | every record, including one with a null description, is rebuilt from its own column values |
| `Repository.AddOrder` | src/routes/services/repository.py:8-28 | succeeds exactly when the new id fits the 32-bit `id` column and name ≤ 50, description ≤ 200 and status ≤ 20 characters. On success the new record has the new id, the input's fields and the input's date or else `now`; it is stored under that id, and every other record is unchanged. On failure the store is unchanged. Well-formedness is preserved |
| `Repository.AddIgnoresInputId` | src/routes/repository.py:7-18 | the input's `id` has no effect on what `add_order` stores or returns |
| `Repository.AddThenGet` | src/routes/services/repository.py:8-28 | a record just added is read back under its id |
| `Repository.GetOrder` | src/routes/services/repository.py:43-60 | succeeds exactly when the id is stored and returns that record; otherwise fails with `Order {id} not found` |
| `Repository.EditOrder` | src/routes/services/repository.py:63-86 | a missing id gives not-found and leaves the store unchanged. On success only name, description and status of that record change: its id, its creation date and every other record stay. A write over the column limits fails and commits nothing |
| `Repository.EditThenGet` | src/routes/services/repository.py:63-86 | after a successful edit, reading the id returns the edited record |
| `Repository.DeleteOrder` | src/routes/services/repository.py:89-108 | succeeds exactly when the id is stored. It returns the record as it was and removes that key and nothing else; on failure it changes nothing and reports not-found |
| `Repository.DeleteThenGet` | src/routes/services/repository.py:89-108 | after a successful delete, reading the id fails with not-found |
| `Repository.UpdateStatus` | src/routes/services/repository.py:122-139 | the per-id loop computes exactly the reference outcome `BulkUpdate`, stopping at the first failing commit |
| `Repository.BulkUpdate` | src/routes/services/repository.py:111-139 | fails exactly when the status is over 20 characters and some id is stored, and then changes nothing. Otherwise every stored listed id gets the status and no other record changes. Found ids give the updated records, in input order, as now stored; absent ids give one `Order ID {id} not found` message each, in input order. The two lists together have one entry per input id |
| `Repository.BulkLoopStore` | src/routes/services/repository.py:126-134 | after the first `n` ids, the loop's store has the status set on exactly the stored ids among them, with the same keys |
| `Repository.BulkLoopUpdated` | src/routes/services/repository.py:128-132 | after the first `n` ids, the loop's updated list is the found ids among them, in order, each with the new status |
| `Repository.MissingIdMessageCarriesId` | src/routes/services/repository.py:134 | the not-found message holds the decimal id, and `int()` reads it back to the same id |
| `OrderStore.ListOrders` | src/routes/services/repository.py:31-40 | lists each stored key once, in ascending order, with the record stored under it |
| `OrderStore.ListingIsExact` | src/routes/repository.py:21-24 | a record is listed exactly when it is stored under its id, and listed ids strictly increase |
| `OrderStore.SortedIds` | src/routes/services/repository.py:38-39 | the primary keys without repetition, in strictly increasing order |
| `OrderStore.UpsertAll` | src/routes/services/xml_service.py:56-68 | merging records one by one keeps the old keys and adds the new ones. Records whose id is not merged stay as they were; each merged id holds the last record carrying it |
| `OrderStore.MergeAndCommit` | src/routes/services/xml_service.py:68-69 | the single commit succeeds exactly when two conditions hold. First, every record that ends up stored meets the column types and limits: a 32-bit id and the three text lengths. Second, every id the records carry more than once is already stored: the session does not autoflush (src/database/db.py:57), so a second `merge` of a new id cannot see the first one's pending row and the commit inserts the id twice. On success the store is the merge; on failure it is unchanged. Well-formedness is preserved |
| `OrderStore.CommitListing` | src/routes/services/hdf5_service.py:65-74 | committing the listing of a well-formed store, as it is, into any target succeeds and gives the target with every listed record written over it |
| `OrderStore.CommitRecords` | src/routes/services/hdf5_service.py:65-74 | a decoding error reaches the caller and leaves the store unchanged; decoded records are merged and committed |
| `OrderStore.CommitOverride` | src/routes/services/xml_service.py:56-69 | committing the listing of a well-formed store, mapped record by record by an id-preserving, limit-preserving function, succeeds and writes those records over the target store |
| `OrderStore.Override` | src/routes/services/hdf5_service.py:65-74 | overriding has the keys of both stores; the incoming records win and the other records are kept |
| `OrderStore.Collect` | src/routes/services/hdf5_service.py:65-73 | succeeds exactly when every item succeeds and then keeps their values in order; otherwise returns one of the items' errors |
| `Statistics.ValueCounts` | src/routes/services/order_statistic_service.py:24 | counts exactly the distinct values of the column, each mapped to its positive number of occurrences |
| `Statistics.GetOrderStatistics` | src/routes/services/order_statistic_service.py:9-26 | an empty store fails with `KeyError('status')`. Otherwise the keys are exactly the statuses that occur, each mapped to the number of stored orders with exactly that status |
| `Statistics.CountsSumToOrders` | src/routes/services.py:12-29 | on a non-empty store the counts add up to the number of stored orders |
| `Report.StatusColor` | src/routes/services/report_service.py:47-51 | `New` is blue, `In Progress` yellow, `Completed` green; every other status, compared case-sensitively, is white |
| `Report.HighlightedExactly` | src/routes/services.py:68-79 | a status is highlighted exactly when it is one of the three, and two highlighted statuses with the same colour are the same status |
| `Report.GenerateReport` | src/routes/services/report_service.py:27-60 | an empty store fails with `No orders found to generate report.`. Otherwise there is a header row of field names, then one row per order in listing order, holding its `to_dict` values and filled with its status colour |
| `Report.ReportRowsDecode` | src/routes/services.py:48-81 | every data row of the sheet decodes back to the order it was written from |
| `XmlCodec.OrderElement` | src/routes/services/xml_service.py:21-28 | an `order` element has five children, tagged by field name in `to_dict` order, each holding `str(value)` with a null shown as `None` |
| `XmlCodec.ExportXml` | src/routes/services/xml_service.py:9-39 | the `orders` root has one `order` element per stored record, in listing order |
| `XmlCodec.Lookup` | src/routes/services/xml_service.py:57 | reading the children into a dict: a tag that is absent is missing, and a repeated tag gives the last child's text |
| `XmlCodec.ParseOrder` | src/routes/services/xml_service.py:57-67 | a missing `id` child is `KeyError('id')` and a non-integer id is malformed; every parsed description is text, never null |
| `XmlCodec.ParsedFields` | src/routes/services/xml_service.py:58-66 | a parsed record holds exactly its element's texts: the id and date texts parse to its id and date, and name, description and status are the texts themselves |
| `XmlCodec.OrderElements` | src/routes/services/xml_service.py:56 | `findall('order')` keeps only children tagged `order` and keeps every such child. A single child is kept exactly when it is tagged `order`, and a list of only `order` children is kept whole |
| `XmlCodec.OrderElementsConcat` | src/routes/services/xml_service.py:56 | the selection of a concatenation is the concatenation of the selections. With the single-child case this fixes the result: each `order` child once, in document order, and nothing else |
| `XmlCodec.ParseAll` | src/routes/services.py:211-222 | all elements parse, giving their records in order, or the error of one that does not |
| `XmlCodec.ImportXml` | src/routes/services/xml_service.py:42-69 | a parse error leaves the store unchanged. Otherwise the parsed records are merged by id: the keys of both, untouched records kept, one commit. Well-formedness is preserved |
| `XmlCodec.XmlRoundTrip` | src/routes/services.py:164-224 | importing an export into any store succeeds. It writes every exported record over the target, with id, name, creation date and status exact, and a null description comes back as the text `None` |
| `XmlCodec.XmlRoundTripIntoEmpty` | src/routes/services/xml_service.py:9-69 | importing an export into an empty store rebuilds the exported store, up to the null description |
| `XmlCodec.NullAsText` | src/routes/services/xml_service.py:26 | a round trip changes only the description, and only a null one, which becomes `None` |
| `Hdf5Codec.Frame` | src/routes/services/hdf5_service.py:22 | a frame built from no rows has no columns; otherwise it has the five field columns |
| `Hdf5Codec.ExportHdf5` | src/routes/services/hdf5_service.py:8-37 | fails with h5py's `TypeError` exactly when some stored order has a null description, because that dataset would be an object array holding `None`. Otherwise an empty store writes no datasets, and a non-empty one writes five datasets named by field; each has one value per order in listing order, with the creation dates written as text |
| `Hdf5Codec.StorableExactlyWhenDescribed` | src/routes/services/hdf5_service.py:33-35 | every dataset of the frame can be written exactly when every stored order has a description: `description` is the only column that can hold a null value |
| `Hdf5Codec.FrameLength` | src/routes/services/hdf5_service.py:52-55 | a frame can be built exactly when all datasets have the same length, which becomes its row count; no datasets give an empty frame |
| `Hdf5Codec.ConvertColumn` | src/routes/services/hdf5_service.py:57-63 | a column with no text or null value, such as `id`, is skipped. An object column in which every value reads as a date becomes those dates. Any other object column becomes the `astype(str)` text of its values: a text stays as it is and a null becomes the text `None` |
| `Hdf5Codec.ConvertCreationDate` | src/routes/services/hdf5_service.py:57-63 | only the `creation_date` column is converted; the others keep their values |
| `Hdf5Codec.RowRecord` | src/routes/services/hdf5_service.py:65-72 | without an `id` column a row fails with `KeyError('id')`; with all five columns, the row becomes the record built from its five values |
| `Hdf5Codec.ReadRows` | src/routes/services.py:152-159 | all `n` rows become records in row order, or the error of one row that fails |
| `Hdf5Codec.Records` | src/routes/services/hdf5_service.py:52-72 | datasets of unequal length are rejected before any row is read; otherwise there is one record per row, and rows without an `id` column fail with `KeyError('id')` |
| `Hdf5Codec.ImportHdf5` | src/routes/services/hdf5_service.py:40-74 | unequal datasets, a missing `id` column or a bad row leave the store unchanged and report the error. Otherwise the row records are merged by id with one commit, and well-formedness is preserved |
| `Hdf5Codec.TransposeRoundTrip` | src/routes/services.py:105-122 | splitting records into equal-length columns and reading the rows back gives the same records, in the same order |
| `Hdf5Codec.DatesRestored` | src/routes/services/hdf5_service.py:57-63 | after export, converting the `creation_date` column gives back the frame of the listing, with dates as dates |
| `Hdf5Codec.Hdf5RoundTrip` | src/routes/services.py:95-161 | with the corrected conversion, importing a successful export into any store succeeds and gives the target with every exported record written over it, unchanged |
| `Hdf5Codec.EmptyRoundTrip` | src/routes/services/hdf5_service.py:52-74 | the export of an empty store succeeds with no datasets, and importing a file without datasets succeeds and changes nothing |
| `Hdf5Codec.ImportHdf5AsWritten` | src/routes/services.py:144-150 | the import as written runs the conversion on every column, so object columns become dates or their `astype(str)` text. Errors leave the store unchanged, and success merges the rows of the converted frame |
| `Hdf5Codec.DateLikeNameCounterexample` | src/routes/services/hdf5_service.py:58-61 | take a store holding one order named `2024` and any date format that reads `2024` as a date. The export succeeds, and the import as written fails on it, because the name column becomes dates and the row fails to build. The corrected import gives the store back unchanged |
| `Hdf5Codec.DecimalTicksWitness` | src/routes/services/hdf5_service.py:61 | the decimal tick format round-trips dates and reads `2024` as a date, so the counterexample applies to it |
| `Text.IntToStringRoundTrip` | src/routes/services/xml_service.py:58 | `int()` reads the decimal text of any integer back as that integer |

## Left out

- HTTP endpoints, sessions, configuration, file paths and directories, and the
  h5py/openpyxl/ElementTree file formats are not modelled. A file is modelled
  as the value written into it: a map of datasets, a sequence of rows, or an
  element tree.
- Concurrency and per-request sessions are not modelled.
- The clock, the auto-increment id and the text form of datetimes are
  parameters (`now`, `newId`, `DateFormat`), not implementations. No claim is
  made about what `str(datetime)` or `pandas.to_datetime` accept.
- The column limits (a 32-bit id; 50, 200 and 20 characters) are modelled as
  a constraint the database enforces at commit: a text over its limit fails.
  A database that ignores `VARCHAR` lengths, such as SQLite, would accept the
  writes the model rejects.
- `Repository.AddOrder`: PostgreSQL does not reject a `VARCHAR(n)` value whose
  excess characters are all spaces; it truncates the value to `n` characters
  and commits. A status of `New` followed by 18 spaces is stored as its first
  20 characters, where the model fails with a constraint violation. Also, an
  import that writes explicit ids does not advance the id sequence, so a later
  `add_order` can draw an id already stored and fail at commit. The model
  takes a fresh `newId` and does not model that failure.
- `Repository.EditOrder`: the truncation of all-space excess described for
  `AddOrder` is not modelled; such an edit fails in the model.
- `Repository.BulkUpdate`: likewise, a status whose excess is all spaces fails
  in the model, while PostgreSQL stores it truncated.
- `Repository.UpdateStatus`: each id is committed on its own in the code. Only
  the first found id can make a commit fail, and nothing has been committed
  before it, so the model reports the failure with the store unchanged. The
  not-found messages are rendered once the loop ends, from the absent ids, in
  the same order.
- `OrderStore.ListOrders`: `db.query(Order).all()` has no `ORDER BY`, so the
  database may return rows in any order. Ascending primary-key order is a
  modelling choice. The order of report rows, XML elements and HDF5 rows is
  inherited from it.
- `OrderStore.MergeAndCommit`: a repeated new id is reported as a constraint
  violation. Which error SQLAlchemy raises for it, a conflicting identity in
  the flush or the database's primary-key error, is not distinguished. A
  text whose excess over its limit is all spaces also fails in the model,
  while PostgreSQL stores it truncated, as described for `AddOrder`.
- `Statistics.GetOrderStatistics`: `value_counts` orders its keys by count.
  A map has no order, so the model states only the keys and their counts.
- Statistics on an empty table: the code raises `KeyError('status')`, because
  an empty frame has no `status` column. The model fails the same way instead
  of returning an empty mapping.
- `XmlCodec.XmlRoundTrip`: a null description is exported as the text `None`
  and comes back as the string `None`, so the round trip is exact only up to
  `NullAsText`. ElementTree reading an empty element's text as `None` is not
  modelled: an empty name, description or status is read back as an empty
  string.
- `XmlCodec.ParseOrder`: `int()` is modelled as an optional `-` or `+` sign
  followed by ASCII digits. Python also accepts surrounding whitespace, `_`
  between digits and non-ASCII decimal digits; the model treats these as
  malformed.
- `Hdf5Codec.ImportHdf5`: pandas 2 or later is assumed. h5py 3 writes text as
  variable-length strings, and `f[key][:]` reads them back as `bytes` objects.
  pandas 2's `astype(str)` decodes them, so every column that goes through the
  conversion holds the written text. The model reads every text column back
  as written, that is, decoded, as the import's docstring (line 45) promises.
  A column the code does not convert would stay `bytes`; that is not
  modelled. Under pandas 1, `astype(str)` would give the text `b'...'`; that is
  not modelled either.
- `Hdf5Codec.ExportHdf5`: when writing the `description` dataset fails, the
  `id` and `name` datasets already written stay in the file on disk. The model
  returns only the error.
- `Hdf5Codec.Hdf5RoundTrip`: the round trip is stated only for stores that
  export, that is, stores whose every order has a description. The export of
  any other store fails, so there is nothing to import.
- `Orders.FromCells`: a datetime in a text column, such as `name`, is a
  malformed row. With psycopg2 on PostgreSQL the datetime is instead cast to
  text on assignment to the `VARCHAR` column and stored, such as
  `2024-01-01 00:00:00`.
  A null creation date is also a malformed row rather than pandas' `NaT`, and a `creation_date` column left as text after a failed
  conversion is malformed rather than passed on to the database to reject.
- `Report.GenerateReport`: pandas' frame index and openpyxl cell objects are
  not modelled. Sheet row `index + 2` corresponds to `rows[index + 1]`.

## Findings

| source | as written | input that shows it | evidently intended | confidence | as-written member | corrected member |
|---|---|---|---|---|---|---|
| src/routes/services/hdf5_service.py:58-63 (and src/routes/services.py:145-150) | the import tries the date conversion on every object column, so any text column whose values all read as dates is turned into datetimes | a table holding one order named `2024`. The exported `name` column is `["2024"]`, which reads as a date, so `name` becomes a datetime and the record does not come back as exported. The model rejects the row. With psycopg2 on PostgreSQL the program instead succeeds and silently renames the order to the datetime's text, `2024-01-01 00:00:00` | decode every text column, as the import's docstring (src/routes/services/hdf5_service.py:45) promises, and convert only the `creation_date` column written as text by the export, so every table the export writes imports back unchanged | medium (with pandas 2, whose `astype(str)` decodes the `bytes` h5py 3 returns, an all-digit text such as `2024` reads as a date; the proof uses any date format that does); not executed | `Hdf5Codec.ImportHdf5AsWritten` (shown by `Hdf5Codec.DateLikeNameCounterexample`) | `Hdf5Codec.ImportHdf5` (proved by `Hdf5Codec.Hdf5RoundTrip`) |

=== FILE: hdf5_codec.dfy ===
/**
 The HDF5 codec. Export builds a frame from the `to_dict` rows, writes its
 datetime column as text and stores one dataset per column. Import reads every
 dataset back as a frame column, tries to read text columns as dates, builds
 one record per row and merges the records by id with one commit at the end.
 */
module Hdf5Codec {
  import opened Wrappers
  import opened Text
  import opened Orders
  import opened OrderStore

  /** A file: its datasets, by name. */
  type File = map<string, seq<Cell>>

  /** The dataset names of a non-empty export. */
  const ColumnNames: set<string> := {"id", "name", "description", "creation_date", "status"}

  /** Column `f` of the frame built from the `to_dict` rows of `xs`. */
  function Column(xs: seq<Order>, f: int): (col: seq<Cell>)
    requires 0 <= f < |FieldNames|
    ensures |col| == |xs|
    ensures forall i :: 0 <= i < |xs| ==> col[i] == Cells(xs[i])[f]
  {
    seq(|xs|, i requires 0 <= i < |xs| => Cells(xs[i])[f])
  }

  /** `pd.DataFrame([o.to_dict() for o in xs])`: one column per field, and no
      columns at all when there are no rows. */
  function Frame(xs: seq<Order>): (r: File)
    ensures |xs| == 0 ==> r == map[]
    ensures |xs| > 0 ==> r.Keys == ColumnNames
    ensures |xs| > 0 ==> forall f :: 0 <= f < |FieldNames| ==> FieldNames[f] in r && r[FieldNames[f]] == Column(xs, f)
  {
    if |xs| == 0 then map[]
    else map[
      "id" := Column(xs, IdField),
      "name" := Column(xs, NameField),
      "description" := Column(xs, DescriptionField),
      "creation_date" := Column(xs, DateField),
      "status" := Column(xs, StatusField)]
  }

  /** A value as written: a datetime becomes its text. */
  function Written(c: Cell, fmt: DateFormat): Cell {
    if c.DateCell? then TextCell(fmt.show(c.date)) else c
  }

  /** `df[column].astype(str)` on a datetime column. */
  function WriteColumn(col: seq<Cell>, fmt: DateFormat): (r: seq<Cell>)
    ensures |r| == |col| && forall i :: 0 <= i < |col| ==> r[i] == Written(col[i], fmt)
  {
    seq(|col|, i requires 0 <= i < |col| => Written(col[i], fmt))
  }

  /** The frame of the listing with datetimes as text, one dataset per column. */
  function WriteFrame(s: Store, fmt: DateFormat): (r: File)
    ensures |s| == 0 ==> r == map[]
    ensures |s| > 0 ==> r.Keys == ColumnNames
    ensures forall k :: k in r ==> |r[k]| == |s|
    ensures |s| > 0 ==> forall f :: 0 <= f < |FieldNames| ==>
      FieldNames[f] in r && r[FieldNames[f]] == WriteColumn(Column(ListOrders(s), f), fmt)
  {
    var xs := ListOrders(s);
    if |xs| == 0 then map[]
    else
      var r := WriteColumns(xs, fmt);
      WrittenByField(xs, fmt, r);
      r
  }

  /** h5py stores a column only when its values have a native HDF5 type: a
      null value makes the column an object array that has none. */
  predicate Storable(col: seq<Cell>) {
    forall i :: 0 <= i < |col| ==> !col[i].NullCell?
  }

  /** Every stored record has a description. */
  predicate Described(s: Store) {
    forall id :: id in s ==> s[id].description.Some?
  }

  /** The `TypeError` h5py raises for a column it cannot store. */
  const NoNativeType := "Object dtype dtype('O') has no native HDF5 equivalent"

  /** `export_orders_to_hdf5`: the frame of the listing with datetimes as
      text, one dataset per column. Writing a column that holds a null value
      fails, so the export fails exactly when some record has no description. */
  function ExportHdf5(s: Store, fmt: DateFormat): (r: Result<File, Error>)
    ensures r.Success? <==> Described(s)
    ensures r.Failure? ==> r.error == TypeError(NoNativeType)
    ensures r.Success? && |s| == 0 ==> r.value == map[]
    ensures r.Success? && |s| > 0 ==> r.value.Keys == ColumnNames
    ensures r.Success? ==> forall k :: k in r.value ==> |r.value[k]| == |s|
    ensures r.Success? && |s| > 0 ==> forall f :: 0 <= f < |FieldNames| ==>
      FieldNames[f] in r.value && r.value[FieldNames[f]] == WriteColumn(Column(ListOrders(s), f), fmt)
  {
    var file := WriteFrame(s, fmt);
    StorableExactlyWhenDescribed(s, fmt);
    if forall k :: k in file ==> Storable(file[k]) then Success(file)
    else Failure(TypeError(NoNativeType))
  }

  /** The only column that can hold a null value is `description`. */
  lemma StorableExactlyWhenDescribed(s: Store, fmt: DateFormat)
    ensures (forall k :: k in WriteFrame(s, fmt) ==> Storable(WriteFrame(s, fmt)[k])) <==> Described(s)
  {
    var file := WriteFrame(s, fmt);
    if Described(s) {
      forall k | k in file
        ensures Storable(file[k])
      {
        ListingDescribed(s);
        var f := FieldOf(k);
        ColumnStorable(ListOrders(s), f, fmt);
      }
    } else {
      NullListed(s, fmt);
    }
  }

  /** The field a dataset of the export is named after. */
  function FieldOf(k: string): (f: int)
    requires k in ColumnNames
    ensures 0 <= f < |FieldNames| && FieldNames[f] == k
  {
    if k == "id" then IdField
    else if k == "name" then NameField
    else if k == "description" then DescriptionField
    else if k == "creation_date" then DateField
    else StatusField
  }

  lemma ListingDescribed(s: Store)
    requires Described(s)
    ensures forall i :: 0 <= i < |ListOrders(s)| ==> ListOrders(s)[i].description.Some?
  {
  }

  lemma ColumnStorable(xs: seq<Order>, f: int, fmt: DateFormat)
    requires 0 <= f < |FieldNames|
    requires forall i :: 0 <= i < |xs| ==> xs[i].description.Some?
    ensures Storable(WriteColumn(Column(xs, f), fmt))
  {
    assert forall i :: 0 <= i < |xs| ==> !Cells(xs[i])[f].NullCell?;
  }

  /** A record without a description puts a null value in the `description` dataset. */
  lemma NullListed(s: Store, fmt: DateFormat)
    requires !Described(s)
    ensures "description" in WriteFrame(s, fmt) && !Storable(WriteFrame(s, fmt)["description"])
  {
    var file := WriteFrame(s, fmt);
    var xs := ListOrders(s);
    var ids := SortedIds(s.Keys);
    var id :| id in s && s[id].description.None?;
    assert id in ids;
    var i :| 0 <= i < |ids| && ids[i] == id;
    assert xs[i] == s[id];
    assert FieldNames[DescriptionField] in file;
    assert file["description"][i] == Written(Cells(xs[i])[DescriptionField], fmt);
  }

  function WriteColumns(xs: seq<Order>, fmt: DateFormat): (r: File) {
    map[
      "id" := WriteColumn(Column(xs, IdField), fmt),
      "name" := WriteColumn(Column(xs, NameField), fmt),
      "description" := WriteColumn(Column(xs, DescriptionField), fmt),
      "creation_date" := WriteColumn(Column(xs, DateField), fmt),
      "status" := WriteColumn(Column(xs, StatusField), fmt)]
  }

  lemma WrittenByField(xs: seq<Order>, fmt: DateFormat, r: File)
    requires r == WriteColumns(xs, fmt)
    ensures r.Keys == ColumnNames
    ensures forall k :: k in r ==> |r[k]| == |xs|
    ensures forall f :: 0 <= f < |FieldNames| ==> FieldNames[f] in r && r[FieldNames[f]] == WriteColumn(Column(xs, f), fmt)
  {
  }

  /** `pd.DataFrame(data)`: the common length of the columns. Columns of
      unequal length are rejected; no columns make an empty frame. */
  function FrameLength(file: File): (r: Result<nat, Error>)
    ensures r.Success? <==> forall a, b :: a in file && b in file ==> |file[a]| == |file[b]|
    ensures r.Success? ==> forall k :: k in file ==> |file[k]| == r.value
    ensures file == map[] ==> r == Success(0)
    ensures r.Failure? ==> r.error.Malformed?
  {
    if forall a, b :: a in file && b in file ==> |file[a]| == |file[b]| then
      if file == map[] then Success(0)
      else
        HasMember(file.Keys);
        var k :| k in file.Keys;
        Success(|file[k]|)
    else Failure(Malformed("All arrays must be of the same length"))
  }

  /** The column holds a text or a null value, so pandas gives it the object dtype. */
  predicate IsObjectColumn(col: seq<Cell>) {
    exists i :: 0 <= i < |col| && (col[i].TextCell? || col[i].NullCell?)
  }

  /** Every value of the column, as text, reads as a date. */
  predicate ReadsAsDates(col: seq<Cell>, fmt: DateFormat) {
    forall i :: 0 <= i < |col| ==> fmt.parse(CellText(col[i], fmt)).Some?
  }

  /** `df[column] = pd.to_datetime(df[column].astype(str), errors='ignore')`
      on an object column: every value read as a date or, when some value
      does not read as one, the text `astype(str)` made of it, so that a null
      value becomes the text `None`. A column of another dtype is skipped. */
  function ConvertColumn(col: seq<Cell>, fmt: DateFormat): (r: seq<Cell>)
    ensures |r| == |col|
    ensures !IsObjectColumn(col) ==> r == col
    ensures IsObjectColumn(col) && ReadsAsDates(col, fmt) ==>
      forall i :: 0 <= i < |col| ==> r[i] == DateCell(fmt.parse(CellText(col[i], fmt)).value)
    ensures IsObjectColumn(col) && !ReadsAsDates(col, fmt) ==>
      forall i :: 0 <= i < |col| ==> r[i] == TextCell(CellText(col[i], fmt))
    ensures !ReadsAsDates(col, fmt) ==> forall i :: 0 <= i < |col| && col[i].TextCell? ==> r[i] == col[i]
    ensures IsObjectColumn(col) && !ReadsAsDates(col, fmt) ==> forall i :: 0 <= i < |col| && col[i].NullCell? ==> r[i] == TextCell(NullText)
  {
    if !IsObjectColumn(col) then col
    else if ReadsAsDates(col, fmt) then
      seq(|col|, i requires 0 <= i < |col| => DateCell(fmt.parse(CellText(col[i], fmt)).value))
    else
      seq(|col|, i requires 0 <= i < |col| => TextCell(CellText(col[i], fmt)))
  }

  /** The conversion loop as written: every column is tried. */
  function ConvertEveryColumn(file: File, fmt: DateFormat): (r: File)
    ensures r.Keys == file.Keys
    ensures forall k :: k in file ==> r[k] == ConvertColumn(file[k], fmt)
  {
    map k | k in file :: ConvertColumn(file[k], fmt)
  }

  /** The conversion meant by the loop: only `creation_date` holds dates. */
  function ConvertCreationDate(file: File, fmt: DateFormat): (r: File)
    ensures r.Keys == file.Keys
    ensures forall k :: k in file && k != "creation_date" ==> r[k] == file[k]
    ensures "creation_date" in file ==> r["creation_date"] == ConvertColumn(file["creation_date"], fmt)
  {
    if "creation_date" in file then file["creation_date" := ConvertColumn(file["creation_date"], fmt)]
    else file
  }

  /** `row[key]`: a missing column is a `KeyError`. */
  function ValueAt(frame: File, key: string, i: int): (r: Result<Cell, Error>)
    requires 0 <= i && forall k :: k in frame ==> i < |frame[k]|
    ensures key in frame ==> r == Success(frame[key][i])
    ensures key !in frame ==> r == Failure(KeyError(key))
  {
    if key in frame then Success(frame[key][i]) else Failure(KeyError(key))
  }

  /** `Order(id=row['id'], name=row['name'], ...)` for row `i`. */
  function RowRecord(frame: File, i: int): (r: Result<Order, Error>)
    requires 0 <= i && forall k :: k in frame ==> i < |frame[k]|
    ensures "id" !in frame ==> r == Failure(KeyError("id"))
    ensures ColumnNames <= frame.Keys ==>
      r == FromCells([frame["id"][i], frame["name"][i], frame["description"][i], frame["creation_date"][i], frame["status"][i]])
  {
    var id :- ValueAt(frame, "id", i);
    var name :- ValueAt(frame, "name", i);
    var description :- ValueAt(frame, "description", i);
    var date :- ValueAt(frame, "creation_date", i);
    var status :- ValueAt(frame, "status", i);
    FromCells([id, name, description, date, status])
  }

  /** `df.iterrows()`: every row as a record, or the first failure. */
  function ReadRows(frame: File, n: nat): (r: Result<seq<Order>, Error>)
    requires forall k :: k in frame ==> |frame[k]| == n
    ensures r.Success? ==> |r.value| == n && forall i :: 0 <= i < n ==> RowRecord(frame, i) == Success(r.value[i])
    ensures r.Failure? ==> exists i :: 0 <= i < n && RowRecord(frame, i) == Failure(r.error)
  {
    var rs := seq(n, i requires 0 <= i < n => RowRecord(frame, i));
    assert forall i :: 0 <= i < n ==> rs[i] == RowRecord(frame, i);
    Collect(rs)
  }

  /** The records of a file whose columns `converted` holds after the date
      conversion, which keeps every column's name and length. */
  function Records(file: File, converted: File): (r: Result<seq<Order>, Error>)
    requires converted.Keys == file.Keys
    requires forall k :: k in file ==> |converted[k]| == |file[k]|
    ensures FrameLength(file).Failure? ==> r == Failure(FrameLength(file).error)
    ensures r.Success? ==> |r.value| == FrameLength(file).value
    ensures FrameLength(file).Success? && FrameLength(file).value > 0 && "id" !in file ==> r == Failure(KeyError("id"))
  {
    var n :- FrameLength(file);
    NoIdRowsFail(converted, n);
    ReadRows(converted, n)
  }

  /** Rows read without an `id` column fail on the first one. */
  lemma NoIdRowsFail(frame: File, n: nat)
    requires forall k :: k in frame ==> |frame[k]| == n
    ensures n > 0 && "id" !in frame ==> ReadRows(frame, n) == Failure(KeyError("id"))
  {
    if n > 0 && "id" !in frame {
      assert RowRecord(frame, 0) == Failure(KeyError("id"));
    }
  }

  /** `import_orders_from_hdf5` as its docstring describes it: text columns
      decoded (a file here holds text, not bytes) and only the date column
      converted. It merges every row by id and commits once; any failure
      leaves the store as it was. */
  function ImportHdf5(file: File, s: Store, fmt: DateFormat): (r: Reply<()>)
    ensures r.result.Failure? ==> r.store == s
    ensures FrameLength(file).Failure? ==> r == Reply(s, Failure(Malformed("All arrays must be of the same length")))
    ensures FrameLength(file).Success? && FrameLength(file).value > 0 && "id" !in file ==> r == Reply(s, Failure(KeyError("id")))
    ensures Records(file, ConvertCreationDate(file, fmt)).Failure? ==> r == Reply(s, Failure(Records(file, ConvertCreationDate(file, fmt)).error))
    ensures r.result.Success? ==>
      var orders := Records(file, ConvertCreationDate(file, fmt)).value;
      && r.store == UpsertAll(s, orders)
      && r.store.Keys == s.Keys + IdsOf(orders)
      && (forall k :: k in s && k !in IdsOf(orders) ==> r.store[k] == s[k])
    ensures r.result.Success? && WellFormed(s) ==> WellFormed(r.store)
  {
    CommitRecords(s, Records(file, ConvertCreationDate(file, fmt)))
  }

  /** `import_orders_from_hdf5` as written: every column that reads as dates
      is converted, whatever its field. */
  function ImportHdf5AsWritten(file: File, s: Store, fmt: DateFormat): (r: Reply<()>)
    ensures r.result.Failure? ==> r.store == s
    ensures FrameLength(file).Failure? ==> r == Reply(s, Failure(Malformed("All arrays must be of the same length")))
    ensures Records(file, ConvertEveryColumn(file, fmt)).Failure? ==> r == Reply(s, Failure(Records(file, ConvertEveryColumn(file, fmt)).error))
    ensures r.result.Success? ==> r.store == UpsertAll(s, Records(file, ConvertEveryColumn(file, fmt)).value)
  {
    CommitRecords(s, Records(file, ConvertEveryColumn(file, fmt)))
  }

  /** Splitting records into columns and reading the rows back gives the
      records again, in order. */
  lemma TransposeRoundTrip(xs: seq<Order>)
    ensures FrameLength(Frame(xs)) == Success(|xs|)
    ensures ReadRows(Frame(xs), |xs|) == Success(xs)
  {
    var frame := Frame(xs);
    if |xs| > 0 {
      assert FieldNames[0] in frame;
    }
    forall i | 0 <= i < |xs|
      ensures RowRecord(frame, i) == Success(xs[i])
    {
      assert [frame["id"][i], frame["name"][i], frame["description"][i], frame["creation_date"][i], frame["status"][i]] == Cells(xs[i]);
      CellsRoundTrip(xs[i]);
    }
    var r := ReadRows(frame, |xs|);
    assert r.Success?;
    assert forall i :: 0 <= i < |xs| ==> r.value[i] == xs[i];
    assert r.value == xs;
  }

  /** Reading the written date column back as dates restores the frame of
      the listing. */
  lemma DatesRestored(s: Store, fmt: DateFormat)
    requires RoundTrips(fmt)
    ensures ConvertCreationDate(WriteFrame(s, fmt), fmt) == Frame(ListOrders(s))
  {
    var xs := ListOrders(s);
    if |xs| > 0 {
      var r := ConvertCreationDate(WriteFrame(s, fmt), fmt);
      var frame := Frame(xs);
      forall f | 0 <= f < |FieldNames|
        ensures r[FieldNames[f]] == frame[FieldNames[f]]
      {
        if f == DateField {
          DateColumnRestored(xs, fmt);
        } else {
          NothingToWrite(xs, fmt, f);
        }
      }
      SameColumns(r, frame);
    }
  }

  /** Only the `creation_date` column holds datetimes. */
  lemma NothingToWrite(xs: seq<Order>, fmt: DateFormat, f: int)
    requires 0 <= f < |FieldNames| && f != DateField
    ensures WriteColumn(Column(xs, f), fmt) == Column(xs, f)
  {
    assert forall i :: 0 <= i < |xs| ==> !Cells(xs[i])[f].DateCell?;
  }

  /** Two files with the export's datasets agree when every field's column does. */
  lemma SameColumns(a: File, b: File)
    requires a.Keys == ColumnNames && b.Keys == ColumnNames
    requires forall f :: 0 <= f < |FieldNames| ==> a[FieldNames[f]] == b[FieldNames[f]]
    ensures a == b
  {
    assert FieldNames[IdField] == "id" && FieldNames[NameField] == "name" && FieldNames[DescriptionField] == "description";
    assert FieldNames[DateField] == "creation_date" && FieldNames[StatusField] == "status";
    assert forall k :: k in a <==> k in b;
    assert forall k :: k in a ==> a[k] == b[k];
  }

  lemma DateColumnRestored(xs: seq<Order>, fmt: DateFormat)
    requires RoundTrips(fmt)
    requires |xs| > 0
    ensures ConvertColumn(WriteColumn(Column(xs, DateField), fmt), fmt) == Column(xs, DateField)
  {
    var col := Column(xs, DateField);
    var written := WriteColumn(col, fmt);
    assert forall i :: 0 <= i < |xs| ==> written[i] == TextCell(fmt.show(xs[i].creationDate));
    assert written[0].TextCell?;
    assert forall i :: 0 <= i < |xs| ==> fmt.parse(CellText(written[i], fmt)) == Some(xs[i].creationDate);
    var r := ConvertColumn(written, fmt);
    assert forall i :: 0 <= i < |xs| ==> r[i] == col[i];
  }

  /** Export then import merges every stored record back under its id,
      exactly: the result is the store overridden by the exported one. */
  lemma Hdf5RoundTrip(s0: Store, s: Store, fmt: DateFormat)
    requires WellFormed(s0)
    requires RoundTrips(fmt)
    ensures ExportHdf5(s0, fmt).Success? ==>
      ImportHdf5(ExportHdf5(s0, fmt).value, s, fmt) == Reply(s + s0, Success(()))
  {
    ExportReadsBack(s0, fmt);
    CommitListing(s, s0);
  }

  /** The records read back from a written frame are the listing. */
  lemma ExportReadsBack(s0: Store, fmt: DateFormat)
    requires RoundTrips(fmt)
    ensures var file := WriteFrame(s0, fmt);
      Records(file, ConvertCreationDate(file, fmt)) == Success(ListOrders(s0))
  {
    var xs := ListOrders(s0);
    var file := WriteFrame(s0, fmt);
    var converted := ConvertCreationDate(file, fmt);
    DatesRestored(s0, fmt);
    TransposeRoundTrip(xs);
    ExportLength(s0, fmt);
    assert converted == Frame(xs);
  }

  lemma ExportLength(s0: Store, fmt: DateFormat)
    ensures FrameLength(WriteFrame(s0, fmt)) == Success(|s0|)
  {
    var file := WriteFrame(s0, fmt);
    if |s0| > 0 {
      assert FieldNames[IdField] in file;
    }
  }

  /** An empty store exports no dataset, and importing a file without
      datasets leaves any store as it was. */
  lemma EmptyRoundTrip(s: Store, fmt: DateFormat)
    ensures ExportHdf5(map[], fmt) == Success(map[])
    ensures ImportHdf5(map[], s, fmt) == Reply(s, Success(()))
  {
    assert ReadRows(map[], 0) == Success([]);
    assert UpsertAll(s, []) == s;
  }

  /** Instants written as their decimal microsecond count, the shape of
      `str(datetime)` for the purpose of the counterexample below: a text
      that is all digits reads as a date. */
  function DecimalTicks(): (fmt: DateFormat)
    ensures RoundTrips(fmt)
  {
    var fmt := DateFormat(
      (d: DateTime) => IntToString(d.micros),
      (t: string) => match ParseInt(t) case Some(m) => Some(DateTime(m)) case None => None);
    assert forall d :: fmt.parse(fmt.show(d)) == Some(d) by {
      forall d: DateTime
        ensures fmt.parse(fmt.show(d)) == Some(d)
      {
        IntToStringRoundTrip(d.micros);
      }
    }
    fmt
  }

  /** A record whose name reads as a date. */
  const DateLikeName := Order(1, "2024", Some("Red"), DateTime(0), "New")

  /** As written, a store whose every name reads as a date does not survive
      the round trip: its export succeeds, but the name column is turned into
      dates and the record cannot be rebuilt; with only `creation_date`
      converted it comes back unchanged. This holds for any format that reads
      `2024` as a date, the decimal tick format among them. */
  lemma DateLikeNameCounterexample(s0: Store, fmt: DateFormat)
    requires s0 == map[1 := DateLikeName]
    requires RoundTrips(fmt)
    requires fmt.parse("2024").Some?
    ensures ExportHdf5(s0, fmt) == Success(WriteFrame(s0, fmt))
    ensures ImportHdf5AsWritten(WriteFrame(s0, fmt), map[], fmt).result.Failure?
    ensures ImportHdf5(WriteFrame(s0, fmt), map[], fmt) == Reply(s0, Success(()))
  {
    assert Described(s0);
    DateLikeNameRejected(s0, fmt);
    SingleStore(DateLikeName);
    Hdf5RoundTrip(s0, map[], fmt);
  }

  lemma DateLikeNameRejected(s0: Store, fmt: DateFormat)
    requires s0 == map[1 := DateLikeName]
    requires fmt.parse("2024").Some?
    ensures ImportHdf5AsWritten(WriteFrame(s0, fmt), map[], fmt).result.Failure?
  {
    var file := WriteFrame(s0, fmt);
    DateLikeNameColumn(s0, fmt);
    TextAsDate("2024", fmt.parse("2024").value, fmt);
    var converted: File := ConvertEveryColumn(file, fmt);
    assert converted["name"][0].DateCell?;
    assert RowRecord(converted, 0).Failure?;
    assert Records(file, converted).Failure?;
  }

  lemma DateLikeNameColumn(s0: Store, fmt: DateFormat)
    requires s0 == map[1 := DateLikeName]
    ensures var file := WriteFrame(s0, fmt);
      && FrameLength(file) == Success(1)
      && "name" in file && file["name"] == [TextCell("2024")]
  {
    var xs := ListOrders(s0);
    assert |xs| == 1;
    assert 1 in s0;
    assert xs[0] == DateLikeName;
    var file := WriteFrame(s0, fmt);
    assert FieldNames[NameField] in file;
    assert file["name"][0] == TextCell("2024");
  }

  /** The decimal tick format meets the assumptions of the counterexample:
      it round-trips dates and reads `2024` as a date. */
  lemma DecimalTicksWitness()
    ensures RoundTrips(DecimalTicks())
    ensures DecimalTicks().parse("2024").Some?
  {
    assert IsIntegerLiteral("2024");
  }

  /** A one-value text column that reads as a date becomes that date. */
  lemma TextAsDate(t: string, d: DateTime, fmt: DateFormat)
    requires fmt.parse(t) == Some(d)
    ensures ConvertColumn([TextCell(t)], fmt) == [DateCell(d)]
  {
    var col := [TextCell(t)];
    assert col[0].TextCell? && CellText(col[0], fmt) == t;
  }
}

=== FILE: orders.dfy ===
/**
 The `Order` entity of the order store: its five columns, the column
 constraints the table declares, and the `to_dict` field order that every
 export follows.
 */
module Orders {
  import opened Wrappers
  import opened Text

  /** An instant, as microseconds since the epoch. The core only compares
      instants and converts them to and from text. */
  datatype DateTime = DateTime(micros: int)

  /** A text rendering of instants (`str(datetime)`) and its parser
      (`pandas.to_datetime`), which fails on text it cannot read. */
  datatype DateFormat = DateFormat(show: DateTime -> string, parse: string -> Option<DateTime>)

  /** The hypothesis under which dates survive an export/import cycle. */
  ghost predicate RoundTrips(fmt: DateFormat) {
    forall d :: fmt.parse(fmt.show(d)) == Some(d)
  }

  const MaxNameLength: nat := 50
  const MaxDescriptionLength: nat := 200
  const MaxStatusLength: nat := 20

  /** A persisted row of the `orders` table. `name` and `status` are NOT NULL,
      so they are plain strings; `description` is nullable. */
  datatype Order = Order(
    id: int,
    name: string,
    description: Option<string>,
    creationDate: DateTime,
    status: string)

  /** The request shape: `id`, `description` and `creation_date` optional,
      `name` and `status` required. */
  datatype OrderInput = OrderInput(
    id: Option<int>,
    name: string,
    description: Option<string>,
    creationDate: Option<DateTime>,
    status: string)

  /** The errors the core raises. */
  datatype Error =
    | NotFound(message: string)
    | EmptyDataset(message: string)
    | KeyError(key: string)
    | Malformed(message: string)
    | ConstraintViolation
    | TypeError(message: string)

  /** The `id` column is a 32-bit `INTEGER`. */
  predicate ValidId(id: int) {
    -0x8000_0000 <= id < 0x8000_0000
  }

  predicate ValidName(name: string) {
    |name| <= MaxNameLength
  }

  predicate ValidDescription(description: Option<string>) {
    description.Some? ==> |description.value| <= MaxDescriptionLength
  }

  predicate ValidStatus(status: string) {
    |status| <= MaxStatusLength
  }

  /** The declared column types and lengths: the database rejects, at commit,
      a row that breaks them. */
  predicate Valid(o: Order) {
    ValidId(o.id) && ValidName(o.name) && ValidDescription(o.description) && ValidStatus(o.status)
  }

  /** A value as it appears in a frame, a sheet or a dataset. */
  datatype Cell = IntCell(i: int) | TextCell(text: string) | NullCell | DateCell(date: DateTime)

  /** The keys of `to_dict`, in order. */
  const FieldNames: seq<string> := ["id", "name", "description", "creation_date", "status"]

  const IdField := 0
  const NameField := 1
  const DescriptionField := 2
  const DateField := 3
  const StatusField := 4

  function DescriptionCell(description: Option<string>): Cell {
    match description
    case Some(t) => TextCell(t)
    case None => NullCell
  }

  /** The values of `to_dict`, in field order. */
  function Cells(o: Order): (r: seq<Cell>)
    ensures |r| == |FieldNames|
  {
    [IntCell(o.id), TextCell(o.name), DescriptionCell(o.description), DateCell(o.creationDate), TextCell(o.status)]
  }

  /** `to_dict`: the five fields keyed by column name. */
  function ToDict(o: Order): (r: seq<(string, Cell)>)
    ensures |r| == |FieldNames|
    ensures forall i :: 0 <= i < |r| ==> r[i].0 == FieldNames[i]
    ensures FromCells(seq(|r|, i requires 0 <= i < |r| => r[i].1)) == Success(o)
  {
    var cells := Cells(o);
    var r := seq(|FieldNames|, i requires 0 <= i < |FieldNames| => (FieldNames[i], cells[i]));
    assert seq(|r|, i requires 0 <= i < |r| => r[i].1) == cells;
    r
  }

  /** Builds a record from one frame row, `Order(id=row['id'], ...)`. A null
      `name` or `status` breaks NOT NULL; a cell of the wrong kind is malformed. */
  function FromCells(cells: seq<Cell>): (r: Result<Order, Error>)
    requires |cells| == |FieldNames|
    ensures r.Success? ==> Cells(r.value) == cells
    ensures (cells[NameField].NullCell? || cells[StatusField].NullCell?) ==> r.Failure?
  {
    var id :- if cells[IdField].IntCell? then Success(cells[IdField].i) else Failure(Malformed("id is not an integer"));
    var name :- TextOf(cells[NameField]);
    var description :- match cells[DescriptionField]
      case TextCell(t) => Success(Some(t))
      case NullCell => Success(None)
      case _ => Failure(Malformed("description is not text"));
    var date :- if cells[DateField].DateCell? then Success(cells[DateField].date) else Failure(Malformed("creation_date is not a datetime"));
    var status :- TextOf(cells[StatusField]);
    Success(Order(id, name, description, date, status))
  }

  function TextOf(c: Cell): (r: Result<string, Error>)
    ensures r.Success? <==> c.TextCell?
  {
    match c
    case TextCell(t) => Success(t)
    case NullCell => Failure(ConstraintViolation)
    case _ => Failure(Malformed("value is not text"))
  }

  /** `str(None)`. */
  const NullText := "None"

  /** `str(value)` for a `to_dict` value; a null prints as `None`. */
  function CellText(c: Cell, fmt: DateFormat): string {
    match c
    case IntCell(i) => IntToString(i)
    case TextCell(t) => t
    case NullCell => NullText
    case DateCell(d) => fmt.show(d)
  }

  /** Every record is rebuilt from its own row of `to_dict` values. */
  lemma CellsRoundTrip(o: Order)
    ensures FromCells(Cells(o)) == Success(o)
  {
  }
}

=== FILE: report.dfy ===
/**
 The spreadsheet report: a header row of field names, one row per order in
 listing order, each data row filled with the colour of its status.
 */
module Report {
  import opened Wrappers
  import opened Orders
  import opened OrderStore

  const EmptyReportMessage := "No orders found to generate report."

  const Blue := "0000FF"
  const Yellow := "FFFF00"
  const Green := "00FF00"
  const White := "FFFFFF"

  /** The three statuses that have a colour of their own. */
  const StatusColors: map<string, string> := map["New" := Blue, "In Progress" := Yellow, "Completed" := Green]

  /** A solid pattern fill from `startColor` to `endColor`. */
  datatype Fill = Fill(startColor: string, endColor: string, fillType: string)

  /** A sheet row: its cells and the fill applied to every one of them. */
  datatype Row = Row(cells: seq<Cell>, fill: Option<Fill>)

  /** `status_colors.get(status, "FFFFFF")`: an exact, case-sensitive lookup. */
  function StatusColor(status: string): (c: string)
    ensures status == "New" ==> c == Blue
    ensures status == "In Progress" ==> c == Yellow
    ensures status == "Completed" ==> c == Green
    ensures status != "New" && status != "In Progress" && status != "Completed" ==> c == White
  {
    if status in StatusColors then StatusColors[status] else White
  }

  /** Only the three distinguished statuses are highlighted, each in a different colour. */
  lemma HighlightedExactly(a: string, b: string)
    ensures StatusColor(a) != White <==> a in StatusColors
    ensures StatusColor(a) != White && StatusColor(a) == StatusColor(b) ==> a == b
  {
  }

  /** The fill of a row whose status is `status`: start and end colour agree. */
  function StatusFill(status: string): (f: Fill)
    ensures f.startColor == f.endColor == StatusColor(status) && f.fillType == "solid"
  {
    Fill(StatusColor(status), StatusColor(status), "solid")
  }

  function HeaderRow(): (r: Row)
    ensures |r.cells| == |FieldNames| && r.fill.None?
    ensures forall j :: 0 <= j < |FieldNames| ==> r.cells[j] == TextCell(FieldNames[j])
  {
    Row(seq(|FieldNames|, j requires 0 <= j < |FieldNames| => TextCell(FieldNames[j])), None)
  }

  /** `generate_report_xlsx`: fails on an empty store, otherwise the header
      followed by one filled row per order. Sheet row `index + 2` of the source
      (one-based, after the header) is `rows[index + 1]` here. */
  function GenerateReport(s: Store): (r: Result<seq<Row>, Error>)
    ensures r.Failure? <==> |s| == 0
    ensures r.Failure? ==> r.error == EmptyDataset(EmptyReportMessage)
    ensures r.Success? ==> |r.value| == |s| + 1 && r.value[0] == HeaderRow()
    ensures r.Success? ==> forall i :: 0 < i < |r.value| ==>
      && r.value[i].cells == Cells(ListOrders(s)[i - 1])
      && r.value[i].fill == Some(StatusFill(ListOrders(s)[i - 1].status))
  {
    var orders := ListOrders(s);
    if |orders| == 0 then Failure(EmptyDataset(EmptyReportMessage))
    else Success([HeaderRow()] + seq(|orders|, i requires 0 <= i < |orders| => Row(Cells(orders[i]), Some(StatusFill(orders[i].status)))))
  }

  /** Reading the data rows back under the header's column names recovers
      every stored record, in listing order. */
  lemma ReportRowsDecode(s: Store)
    requires |s| > 0
    ensures var rows := GenerateReport(s).value;
      forall i :: 0 < i < |rows| ==> FromCells(rows[i].cells) == Success(ListOrders(s)[i - 1])
  {
    var rows := GenerateReport(s).value;
    forall i | 0 < i < |rows|
      ensures FromCells(rows[i].cells) == Success(ListOrders(s)[i - 1])
    {
      CellsRoundTrip(ListOrders(s)[i - 1]);
    }
  }
}

=== FILE: repository.dfy ===
/**
 The order repository: single-record create, read, update and delete, and the
 bulk status update with per-id partial success. Each operation maps a store
 to the store after it together with its result or error.
 */
module Repository {
  import opened Wrappers
  import opened Text
  import opened Orders
  import opened OrderStore

  /** The error text of a single-record miss. */
  function NotFoundMessage(id: int): string {
    "Order " + IntToString(id) + " not found"
  }

  /** The entry the bulk update records for an absent id. */
  function MissingIdMessage(id: int): string {
    "Order ID " + IntToString(id) + " not found"
  }

  /** The bulk-update message names the id it was made for. */
  lemma MissingIdMessageCarriesId(id: int)
    ensures var m := MissingIdMessage(id);
      |m| > 19 && ParseInt(m[9..|m| - 10]) == Some(id)
  {
    var m := MissingIdMessage(id);
    assert m[9..|m| - 10] == IntToString(id);
    IntToStringRoundTrip(id);
  }

  /** `add_order`: a new record under the store-assigned id `newId`, created at
      the supplied date or else at `now`; the input's own `id` is ignored. */
  function AddOrder(s: Store, input: OrderInput, now: DateTime, newId: int): (r: Reply<Order>)
    requires newId !in s
    ensures r.result.Success? <==> ValidId(newId) && ValidName(input.name) && ValidDescription(input.description) && ValidStatus(input.status)
    ensures r.result.Success? ==>
      var o := r.result.value;
      && o.id == newId
      && o.name == input.name && o.description == input.description && o.status == input.status
      && o.creationDate == input.creationDate.GetOr(now)
      && r.store.Keys == s.Keys + {newId}
      && r.store[newId] == o
      && (forall k :: k in s ==> r.store[k] == s[k])
    ensures r.result.Failure? ==> r.store == s && r.result.error == ConstraintViolation
    ensures WellFormed(s) ==> WellFormed(r.store)
  {
    var o := Order(newId, input.name, input.description, input.creationDate.GetOr(now), input.status);
    if Valid(o) then Reply(s[newId := o], Success(o)) else Reply(s, Failure(ConstraintViolation))
  }

  /** `get_order`: the record under `id`, or not-found. */
  function GetOrder(s: Store, id: int): (r: Result<Order, Error>)
    ensures r.Success? <==> id in s
    ensures r.Success? ==> r.value == s[id]
    ensures r.Failure? ==> r.error == NotFound(NotFoundMessage(id))
  {
    if id in s then Success(s[id]) else Failure(NotFound(NotFoundMessage(id)))
  }

  /** `edit_order`: overwrites `name`, `description` and `status` of the record
      under `id`; its `id` and `creation_date` and every other record stay. */
  function EditOrder(s: Store, id: int, input: OrderInput): (r: Reply<Order>)
    ensures id !in s ==> r == Reply(s, Failure(NotFound(NotFoundMessage(id))))
    ensures r.result.Success? <==> id in s && ValidName(input.name) && ValidDescription(input.description) && ValidStatus(input.status)
    ensures r.result.Success? ==>
      var o := r.result.value;
      && r.store.Keys == s.Keys
      && r.store[id] == o
      && o.id == s[id].id && o.creationDate == s[id].creationDate
      && o.name == input.name && o.description == input.description && o.status == input.status
      && (forall k :: k in s && k != id ==> r.store[k] == s[k])
    ensures r.result.Failure? ==> r.store == s
    ensures WellFormed(s) ==> WellFormed(r.store)
  {
    if id !in s then Reply(s, Failure(NotFound(NotFoundMessage(id))))
    else
      var o := s[id].(name := input.name, description := input.description, status := input.status);
      if ValidName(o.name) && ValidDescription(o.description) && ValidStatus(o.status) then
        Reply(s[id := o], Success(o))
      else Reply(s, Failure(ConstraintViolation))
  }

  /** `delete_order`: removes exactly the record under `id` and returns it as it was. */
  function DeleteOrder(s: Store, id: int): (r: Reply<Order>)
    ensures r.result.Success? <==> id in s
    ensures r.result.Success? ==>
      && r.result.value == s[id]
      && r.store.Keys == s.Keys - {id}
      && (forall k :: k in r.store ==> r.store[k] == s[k])
    ensures r.result.Failure? ==> r.store == s && r.result.error == NotFound(NotFoundMessage(id))
    ensures WellFormed(s) ==> WellFormed(r.store)
  {
    if id !in s then Reply(s, Failure(NotFound(NotFoundMessage(id))))
    else Reply(s - {id}, Success(s[id]))
  }

  /** The ids of `ids` present in `s`, in input order. */
  function Found(s: Store, ids: seq<int>): (r: seq<int>)
    ensures forall j :: 0 <= j < |r| ==> r[j] in s && r[j] in ids
    ensures forall k :: k in ids && k in s ==> k in r
    decreases |ids|
  {
    if |ids| == 0 then []
    else
      var init := ids[..|ids| - 1];
      var last := ids[|ids| - 1];
      assert forall k :: k in ids ==> k in init || k == last;
      Found(s, init) + (if last in s then [last] else [])
  }

  /** The ids of `ids` absent from `s`, in input order. */
  function Missing(s: Store, ids: seq<int>): (r: seq<int>)
    ensures forall j :: 0 <= j < |r| ==> r[j] !in s && r[j] in ids
    ensures |r| + |Found(s, ids)| == |ids|
    decreases |ids|
  {
    if |ids| == 0 then []
    else
      var init := ids[..|ids| - 1];
      var last := ids[|ids| - 1];
      Missing(s, init) + (if last in s then [] else [last])
  }

  /** The result of `update_status`: the updated records and a message per absent id. */
  datatype BulkResult = BulkResult(updatedOrders: seq<Order>, notFoundOrders: seq<string>)

  /** `s[k]` with its status replaced. */
  function WithStatus(s: Store, k: int, status: string): Order
    requires k in s
  {
    s[k].(status := status)
  }

  /** `update_status`: sets `newStatus` on every listed id that exists and
      records a not-found message for every other, in input order. Each update
      commits on its own; the only commit that can fail is one whose status
      breaks the column limit, and then it is the first found id, so nothing
      has been committed before it. */
  method UpdateStatus(s: Store, ids: seq<int>, newStatus: string) returns (r: Reply<BulkResult>)
    ensures r == BulkUpdate(s, ids, newStatus)
  {
    var state := BulkState(s, [], []);
    var i := 0;
    while i < |ids|
      invariant 0 <= i <= |ids|
      invariant state == BulkLoop(s, ids, i, newStatus)
      invariant !ValidStatus(newStatus) ==> forall j :: 0 <= j < i ==> ids[j] !in s
    {
      if ids[i] in state.store && !ValidStatus(newStatus) {
        BulkUpdateFails(s, ids, newStatus, i);
        return Reply(s, Failure(ConstraintViolation));
      }
      state := BulkStep(state, ids[i], newStatus);
      i := i + 1;
    }
    BulkUpdateRuns(s, ids, newStatus);
    r := Reply(state.store, Success(BulkResult(state.updated, MissingMessages(state.missing))));
  }

  lemma BulkUpdateFails(s: Store, ids: seq<int>, status: string, i: nat)
    requires i < |ids| && ids[i] in s && !ValidStatus(status)
    ensures BulkUpdate(s, ids, status) == Reply(s, Failure(ConstraintViolation))
  {
  }

  lemma BulkUpdateRuns(s: Store, ids: seq<int>, status: string)
    requires ValidStatus(status) || forall j :: 0 <= j < |ids| ==> ids[j] !in s
    ensures var state := BulkLoop(s, ids, |ids|, status);
      BulkUpdate(s, ids, status) == Reply(state.store, Success(BulkResult(state.updated, MissingMessages(state.missing))))
  {
  }

  /** What `update_status` promises, as a whole: it fails exactly when the
      status breaks the column limit and some id is stored, and then changes
      nothing; otherwise every stored id gets the status and every input id
      is accounted for in the result. */
  function BulkUpdate(s: Store, ids: seq<int>, status: string): (r: Reply<BulkResult>)
    ensures r.result.Failure? <==> !ValidStatus(status) && exists j :: 0 <= j < |ids| && ids[j] in s
    ensures r.result.Failure? ==> r.store == s && r.result.error == ConstraintViolation
    ensures r.result.Success? ==> StatusApplied(s, ids, status, r.store)
    ensures r.result.Success? ==> Accounted(s, ids, status, r.store, r.result.value)
    ensures WellFormed(s) ==> WellFormed(r.store)
  {
    if !ValidStatus(status) && exists j :: 0 <= j < |ids| && ids[j] in s then
      Reply(s, Failure(ConstraintViolation))
    else
      var state := BulkLoop(s, ids, |ids|, status);
      var reply := Reply(state.store, Success(BulkResult(state.updated, MissingMessages(state.missing))));
      BulkLoopOutcome(s, ids, status, reply);
      reply
  }

  /** The accumulators of the bulk loop: the store, the updated records and
      the ids not found, whose messages are the not-found list. */
  datatype BulkState = BulkState(store: Store, updated: seq<Order>, missing: seq<int>)

  /** One iteration of the bulk loop: a stored id gets the status and its
      record is appended; an absent id is recorded for its message. */
  function BulkStep(state: BulkState, id: int, status: string): (r: BulkState)
    ensures r.store.Keys == state.store.Keys
  {
    if id in state.store then
      var order := state.store[id].(status := status);
      BulkState(state.store[id := order], state.updated + [order], state.missing)
    else BulkState(state.store, state.updated, state.missing + [id])
  }

  /** The bulk loop over the first `n` ids. */
  function BulkLoop(s: Store, ids: seq<int>, n: nat, status: string): (r: BulkState)
    requires n <= |ids|
    ensures r.store.Keys == s.Keys
  {
    if n == 0 then BulkState(s, [], [])
    else BulkStep(BulkLoop(s, ids, n - 1, status), ids[n - 1], status)
  }

  /** What the loop computes, in terms of the found and missing ids. */
  lemma BulkLoopSplits(s: Store, ids: seq<int>, n: nat, status: string)
    requires n <= |ids|
    ensures StatusSetOn(s, ids[..n], status, BulkLoop(s, ids, n, status).store)
    ensures BulkLoop(s, ids, n, status).updated == UpdatedRecords(s, Found(s, ids[..n]), status)
    ensures BulkLoop(s, ids, n, status).missing == Missing(s, ids[..n])
  {
    BulkLoopStore(s, ids, n, status);
    BulkLoopUpdated(s, ids, n, status);
    BulkLoopMissing(s, ids, n, status);
  }

  lemma {:induction false} BulkLoopStore(s: Store, ids: seq<int>, n: nat, status: string)
    requires n <= |ids|
    ensures StatusSetOn(s, ids[..n], status, BulkLoop(s, ids, n, status).store)
  {
    if n > 0 {
      BulkLoopStore(s, ids, n - 1, status);
      assert ids[..n] == ids[..n - 1] + [ids[n - 1]];
      assert forall k :: k in ids[..n] <==> k in ids[..n - 1] || k == ids[n - 1];
      StoreStep(s, ids[..n], ids[..n - 1], ids[n - 1], status, BulkLoop(s, ids, n - 1, status).store);
    }
  }

  lemma {:induction false} BulkLoopUpdated(s: Store, ids: seq<int>, n: nat, status: string)
    requires n <= |ids|
    ensures BulkLoop(s, ids, n, status).updated == UpdatedRecords(s, Found(s, ids[..n]), status)
  {
    if n > 0 {
      BulkLoopUpdated(s, ids, n - 1, status);
      BulkLoopStore(s, ids, n - 1, status);
      SplitStep(s, ids[..n], ids[..n - 1], ids[n - 1]);
      AccumulatorsStep(s, Found(s, ids[..n - 1]), ids[n - 1], status);
    }
  }

  lemma {:induction false} BulkLoopMissing(s: Store, ids: seq<int>, n: nat, status: string)
    requires n <= |ids|
    ensures BulkLoop(s, ids, n, status).missing == Missing(s, ids[..n])
  {
    if n > 0 {
      BulkLoopMissing(s, ids, n - 1, status);
      SplitStep(s, ids[..n], ids[..n - 1], ids[n - 1]);
    }
  }

  lemma BulkLoopOutcome(s: Store, ids: seq<int>, status: string, r: Reply<BulkResult>)
    requires ValidStatus(status) || forall j :: 0 <= j < |ids| ==> ids[j] !in s
    requires var state := BulkLoop(s, ids, |ids|, status); r == Reply(state.store, Success(BulkResult(state.updated, MissingMessages(state.missing))))
    ensures r.result.Success? ==> StatusApplied(s, ids, status, r.store)
    ensures r.result.Success? ==> Accounted(s, ids, status, r.store, r.result.value)
    ensures WellFormed(s) ==> WellFormed(r.store)
  {
    BulkLoopSplits(s, ids, |ids|, status);
    assert ids[..|ids|] == ids;
    var state := BulkLoop(s, ids, |ids|, status);
    BulkOutcome(s, ids, status, state.store, BulkResult(state.updated, MissingMessages(state.missing)));
  }

  /** `store` is `s` with `status` set on every stored id in `ids`: no key
      added or removed, every other record untouched. */
  ghost predicate StatusApplied(s: Store, ids: seq<int>, status: string, store: Store) {
    && store.Keys == s.Keys
    && (forall k :: k in s && k in ids ==> store[k] == WithStatus(s, k, status))
    && (forall k :: k in s && k !in ids ==> store[k] == s[k])
  }

  /** Every input id is accounted for once: the found ids, in input order,
      give the updated records as stored, each with the new status; the
      absent ids, in input order, give the not-found messages. */
  ghost predicate Accounted(s: Store, ids: seq<int>, status: string, store: Store, res: BulkResult) {
    && |res.updatedOrders| + |res.notFoundOrders| == |ids|
    && |res.updatedOrders| == |Found(s, ids)|
    && (forall j :: 0 <= j < |res.updatedOrders| ==> Found(s, ids)[j] in store && res.updatedOrders[j] == store[Found(s, ids)[j]])
    && (forall j :: 0 <= j < |res.updatedOrders| ==> res.updatedOrders[j].status == status)
    && res.notFoundOrders == MissingMessages(Missing(s, ids))
  }

  /** `current` is `s` with the status of every id in `prefix` set. */
  ghost predicate StatusSetOn(s: Store, prefix: seq<int>, status: string, current: Store) {
    && current.Keys == s.Keys
    && (forall k :: k in s && k in prefix ==> current[k] == WithStatus(s, k, status))
    && (forall k :: k in s && k !in prefix ==> current[k] == s[k])
  }

  function UpdatedRecords(s: Store, found: seq<int>, status: string): (r: seq<Order>)
    requires forall j :: 0 <= j < |found| ==> found[j] in s
    ensures |r| == |found|
  {
    seq(|found|, j requires 0 <= j < |found| => WithStatus(s, found[j], status))
  }

  function MissingMessages(missing: seq<int>): (r: seq<string>)
    ensures |r| == |missing|
  {
    seq(|missing|, j requires 0 <= j < |missing| => MissingIdMessage(missing[j]))
  }

  lemma SplitStep(s: Store, prefix: seq<int>, init: seq<int>, id: int)
    requires prefix == init + [id]
    ensures Found(s, prefix) == Found(s, init) + (if id in s then [id] else [])
    ensures Missing(s, prefix) == Missing(s, init) + (if id in s then [] else [id])
  {
    assert prefix[..|prefix| - 1] == init;
  }

  lemma AccumulatorsStep(s: Store, found: seq<int>, id: int, status: string)
    requires forall j :: 0 <= j < |found| ==> found[j] in s
    ensures UpdatedRecords(s, found + (if id in s then [id] else []), status) ==
      UpdatedRecords(s, found, status) + (if id in s then [WithStatus(s, id, status)] else [])
  {
  }

  lemma StoreStep(s: Store, prefix: seq<int>, init: seq<int>, id: int, status: string, current: Store)
    requires forall k :: k in prefix <==> k in init || k == id
    requires StatusSetOn(s, init, status, current)
    ensures id in current <==> id in s
    ensures id in s ==> current[id := current[id].(status := status)][id] == WithStatus(s, id, status)
    ensures id in s ==> StatusSetOn(s, prefix, status, current[id := current[id].(status := status)])
    ensures id !in s ==> StatusSetOn(s, prefix, status, current)
  {
  }

  /** What the finished loop has done, in terms of the whole id list. */
  lemma BulkOutcome(s: Store, ids: seq<int>, status: string, store: Store, res: BulkResult)
    requires StatusSetOn(s, ids, status, store)
    requires res.updatedOrders == UpdatedRecords(s, Found(s, ids), status)
    requires res.notFoundOrders == MissingMessages(Missing(s, ids))
    ensures StatusApplied(s, ids, status, store)
    ensures Accounted(s, ids, status, store, res)
    ensures WellFormed(s) && ValidStatus(status) ==> WellFormed(store)
  {
  }

  /** A record just added is found under the id it was given. */
  lemma AddThenGet(s: Store, input: OrderInput, now: DateTime, newId: int)
    requires newId !in s
    ensures var r := AddOrder(s, input, now, newId);
      r.result.Success? ==> GetOrder(r.store, r.result.value.id) == r.result
  {
  }

  /** The `id` of the input plays no part in what `add_order` stores. */
  lemma AddIgnoresInputId(s: Store, input: OrderInput, now: DateTime, newId: int, other: Option<int>)
    requires newId !in s
    ensures AddOrder(s, input.(id := other), now, newId) == AddOrder(s, input, now, newId)
  {
  }

  /** After a successful delete, reading the id fails with not-found. */
  lemma DeleteThenGet(s: Store, id: int)
    ensures var r := DeleteOrder(s, id);
      r.result.Success? ==> GetOrder(r.store, id) == Failure(NotFound(NotFoundMessage(id)))
  {
  }

  /** After a successful edit, reading the id returns the edited record. */
  lemma EditThenGet(s: Store, id: int, input: OrderInput)
    ensures var r := EditOrder(s, id, input);
      r.result.Success? ==> GetOrder(r.store, id) == r.result
  {
  }
}

=== FILE: statistics.dfy ===
/**
 Order statistics: the number of stored orders per status, as pandas'
 `value_counts` computes it over the `status` column.
 */
module Statistics {
  import opened Wrappers
  import opened Orders
  import opened OrderStore

  /** How many entries of `xs` equal `x`. */
  function Occurrences(xs: seq<string>, x: string): nat
    decreases |xs|
  {
    if |xs| == 0 then 0
    else Occurrences(xs[..|xs| - 1], x) + (if xs[|xs| - 1] == x then 1 else 0)
  }

  /** A value that does not occur is counted zero times. */
  lemma {:induction false} OccurrencesOfAbsent(xs: seq<string>, x: string)
    ensures x !in xs ==> Occurrences(xs, x) == 0
    decreases |xs|
  {
    if |xs| > 0 && x !in xs {
      assert forall y :: y in xs[..|xs| - 1] ==> y in xs;
      OccurrencesOfAbsent(xs[..|xs| - 1], x);
    }
  }

  /** `h` with one more occurrence of `x`. */
  function Bump(h: map<string, nat>, x: string): map<string, nat> {
    h[x := (if x in h then h[x] else 0) + 1]
  }

  /** `value_counts`: the distinct values of `xs`, each with its number of occurrences. */
  function ValueCounts(xs: seq<string>): (h: map<string, nat>)
    ensures forall x :: x in h <==> x in xs
    ensures forall x :: x in h ==> h[x] == Occurrences(xs, x) && h[x] > 0
    decreases |xs|
  {
    if |xs| == 0 then map[]
    else
      var init := xs[..|xs| - 1];
      assert forall x :: x in xs <==> x in init || x == xs[|xs| - 1];
      assert forall x :: Occurrences(xs, x) == Occurrences(init, x) + (if xs[|xs| - 1] == x then 1 else 0);
      OccurrencesOfAbsent(init, xs[|xs| - 1]);
      Bump(ValueCounts(init), xs[|xs| - 1])
  }

  /** The `status` column of the listed orders. */
  function StatusColumn(orders: seq<Order>): (r: seq<string>)
    ensures |r| == |orders| && forall i :: 0 <= i < |orders| ==> r[i] == orders[i].status
  {
    seq(|orders|, i requires 0 <= i < |orders| => orders[i].status)
  }

  /** The ids of the stored orders whose status is exactly `status`. */
  function IdsWithStatus(s: Store, status: string): set<int> {
    set k | k in s && s[k].status == status
  }

  /** `get_order_statistics`. On an empty store the frame has no `status`
      column and the lookup raises, so the call fails instead of returning an
      empty mapping. Otherwise each status that occurs maps to the number of
      orders carrying exactly that status. */
  function GetOrderStatistics(s: Store): (r: Result<map<string, nat>, Error>)
    ensures r.Failure? <==> |s| == 0
    ensures r.Failure? ==> r.error == KeyError("status")
    ensures r.Success? ==> forall st :: st in r.value <==> exists k :: k in s && s[k].status == st
    ensures r.Success? ==> forall st :: st in r.value ==> r.value[st] == |IdsWithStatus(s, st)| && r.value[st] > 0
  {
    if |s| == 0 then Failure(KeyError("status"))
    else
      var column := StatusColumn(ListOrders(s));
      var h := ValueCounts(column);
      forall st
        ensures st in h <==> exists k :: k in s && s[k].status == st
        ensures st in h ==> h[st] == |IdsWithStatus(s, st)|
      {
        ColumnCounts(s, st);
      }
      Success(h)
  }

  /** Counting a status in the listing counts the stored orders that carry it. */
  lemma ColumnCounts(s: Store, st: string)
    ensures Occurrences(StatusColumn(ListOrders(s)), st) == |IdsWithStatus(s, st)|
    ensures st in StatusColumn(ListOrders(s)) <==> exists k :: k in s && s[k].status == st
  {
    var ids := SortedIds(s.Keys);
    ColumnIsStatusesAt(s);
    OccurrencesAt(s, ids, st);
    SameIds(s, ids, st);
    ColumnMembers(s, st);
  }

  lemma ColumnIsStatusesAt(s: Store)
    ensures StatusColumn(ListOrders(s)) == StatusesAt(s, SortedIds(s.Keys))
  {
  }

  lemma SameIds(s: Store, ids: seq<int>, st: string)
    requires ids == SortedIds(s.Keys)
    ensures (set k | k in ids && s[k].status == st) == IdsWithStatus(s, st)
  {
  }

  lemma ColumnMembers(s: Store, st: string)
    ensures st in StatusColumn(ListOrders(s)) <==> exists k :: k in s && s[k].status == st
  {
    var ids := SortedIds(s.Keys);
    var column := StatusesAt(s, ids);
    ColumnIsStatusesAt(s);
    if exists k :: k in s && s[k].status == st {
      var k :| k in s && s[k].status == st;
      var i :| 0 <= i < |ids| && ids[i] == k;
      assert column[i] == st;
    }
  }

  function StatusesAt(s: Store, ks: seq<int>): (r: seq<string>)
    requires forall i :: 0 <= i < |ks| ==> ks[i] in s
    ensures |r| == |ks|
  {
    seq(|ks|, i requires 0 <= i < |ks| => s[ks[i]].status)
  }

  predicate Distinct(ks: seq<int>) {
    forall i, j :: 0 <= i < j < |ks| ==> ks[i] != ks[j]
  }

  lemma {:induction false} OccurrencesAt(s: Store, ks: seq<int>, st: string)
    requires forall i :: 0 <= i < |ks| ==> ks[i] in s
    requires Distinct(ks)
    ensures Occurrences(StatusesAt(s, ks), st) == |set k | k in ks && s[k].status == st|
    decreases |ks|
  {
    if |ks| > 0 {
      var init := ks[..|ks| - 1];
      OccurrencesAt(s, init, st);
      assert StatusesAt(s, ks)[..|ks| - 1] == StatusesAt(s, init);
      MatchingStep(s, ks, st);
    }
  }

  /** The ids in `ks` whose status is `st`, split at the last id. */
  lemma MatchingStep(s: Store, ks: seq<int>, st: string)
    requires |ks| > 0
    requires forall i :: 0 <= i < |ks| ==> ks[i] in s
    requires Distinct(ks)
    ensures var init := ks[..|ks| - 1];
      var last := ks[|ks| - 1];
      |set k | k in ks && s[k].status == st| == |set k | k in init && s[k].status == st| + (if s[last].status == st then 1 else 0)
  {
    var init := ks[..|ks| - 1];
    var last := ks[|ks| - 1];
    var before := set k | k in init && s[k].status == st;
    var after := set k | k in ks && s[k].status == st;
    assert forall k :: k in ks <==> k in init || k == last;
    assert last !in init;
    if s[last].status == st {
      assert after == before + {last};
    } else {
      assert after == before;
    }
  }

  /** The sum of the values of a histogram. */
  ghost function Total(h: map<string, nat>): nat
    decreases |h|
  {
    if h == map[] then 0
    else
      assert h.Keys != {};
      HasMember(h.Keys);
      var k :| k in h.Keys;
      h[k] + Total(h - {k})
  }

  /** The total does not depend on which key is taken out first. */
  lemma {:induction false} TotalRemove(h: map<string, nat>, k: string)
    requires k in h
    ensures Total(h) == h[k] + Total(h - {k})
    decreases |h|
  {
    HasMember(h.Keys);
    var j :| j in h && Total(h) == h[j] + Total(h - {j});
    if j != k {
      TotalRemove(h - {j}, k);
      TotalRemove(h - {k}, j);
      assert h - {j} - {k} == h - {k} - {j};
    }
  }

  lemma TotalBump(h: map<string, nat>, x: string)
    ensures Total(Bump(h, x)) == Total(h) + 1
  {
    var b := Bump(h, x);
    TotalRemove(b, x);
    if x in h {
      TotalRemove(h, x);
      assert b - {x} == h - {x};
    } else {
      assert b - {x} == h;
    }
  }

  /** Every entry is counted once: the counts add up to the length of the column. */
  lemma {:induction false} ValueCountsTotal(xs: seq<string>)
    ensures Total(ValueCounts(xs)) == |xs|
    decreases |xs|
  {
    if |xs| > 0 {
      ValueCountsTotal(xs[..|xs| - 1]);
      TotalBump(ValueCounts(xs[..|xs| - 1]), xs[|xs| - 1]);
    }
  }

  /** The per-status counts add up to the number of stored orders. */
  lemma CountsSumToOrders(s: Store)
    requires |s| > 0
    ensures GetOrderStatistics(s).Success? && Total(GetOrderStatistics(s).value) == |s|
  {
    ValueCountsTotal(StatusColumn(ListOrders(s)));
  }
}

=== FILE: store.dfy ===
/**
 The `orders` table as a value: a finite map from primary key to record,
 its listing in primary-key order, and the merge-by-id (upsert) path that the
 import codecs write through, with one commit at the end.
 */
module OrderStore {
  import opened Wrappers
  import opened Orders

  /** `id` is the primary key, so there is at most one record per id. */
  type Store = map<int, Order>

  /** The outcome of an operation: the store after it and what it returned.
      A failed operation commits nothing. */
  datatype Reply<T> = Reply(store: Store, result: Result<T, Error>)

  /** Every record sits under its own id. */
  ghost predicate KeysMatch(s: Store) {
    forall id :: id in s ==> s[id].id == id
  }

  /** The store invariant: keys match ids and every record meets the column constraints. */
  ghost predicate WellFormed(s: Store) {
    KeysMatch(s) && forall id :: id in s ==> Valid(s[id])
  }

  predicate StrictlyIncreasing(ks: seq<int>) {
    forall i, j :: 0 <= i < j < |ks| ==> ks[i] < ks[j]
  }

  lemma {:induction false} HasMinimum(ks: set<int>)
    requires ks != {}
    ensures exists m :: m in ks && forall k :: k in ks ==> m <= k
    decreases |ks|
  {
    if forall x :: x !in ks {
      assert false;
    }
    var x :| x in ks;
    if ks != {x} {
      var rest := ks - {x};
      assert ks == rest + {x};
      HasMinimum(rest);
    }
  }

  /** A non-empty set has a member. */
  lemma HasMember<K>(ks: set<K>)
    requires ks != {}
    ensures exists x :: x in ks
  {
    if forall x :: x !in ks {
      assert false;
    }
  }

  function Minimum(ks: set<int>): (m: int)
    requires ks != {}
    ensures m in ks && forall k :: k in ks ==> m <= k
  {
    HasMinimum(ks);
    var m :| m in ks && forall k :: k in ks ==> m <= k;
    m
  }

  /** The keys in ascending order. */
  function SortedIds(ks: set<int>): (r: seq<int>)
    ensures |r| == |ks|
    ensures forall i :: 0 <= i < |r| ==> r[i] in ks
    ensures forall k :: k in ks ==> k in r
    ensures StrictlyIncreasing(r)
    decreases |ks|
  {
    if ks == {} then []
    else
      var m := Minimum(ks);
      var rest := SortedIds(ks - {m});
      PrependMinimum(ks, m, rest);
      [m] + rest
  }

  /** The minimum of `ks` followed by the rest of `ks` in ascending order is
      all of `ks` in ascending order. */
  lemma PrependMinimum(ks: set<int>, m: int, rest: seq<int>)
    requires m in ks && forall k :: k in ks ==> m <= k
    requires |rest| == |ks - {m}|
    requires forall i :: 0 <= i < |rest| ==> rest[i] in ks - {m}
    requires forall k :: k in ks - {m} ==> k in rest
    requires StrictlyIncreasing(rest)
    ensures |[m] + rest| == |ks|
    ensures forall i :: 0 <= i < |[m] + rest| ==> ([m] + rest)[i] in ks
    ensures forall k :: k in ks ==> k in [m] + rest
    ensures StrictlyIncreasing([m] + rest)
  {
    var r := [m] + rest;
    forall i, j | 0 <= i < j < |r|
      ensures r[i] < r[j]
    {
      assert r[j] == rest[j - 1] && rest[j - 1] in ks - {m};
      if i > 0 {
        assert r[i] == rest[i - 1];
      }
    }
    forall k | k in ks
      ensures k in r
    {
      if k != m {
        assert k in ks - {m};
        var i :| 0 <= i < |rest| && rest[i] == k;
        assert r[i + 1] == k;
      }
    }
  }

  /** `db.query(Order).all()`: every stored record once. The query has no
      `ORDER BY`; the model fixes primary-key order. */
  function ListOrders(s: Store): (r: seq<Order>)
    ensures |r| == |s|
    ensures forall i :: 0 <= i < |r| ==> SortedIds(s.Keys)[i] in s && r[i] == s[SortedIds(s.Keys)[i]]
  {
    var ids := SortedIds(s.Keys);
    seq(|ids|, i requires 0 <= i < |ids| => s[ids[i]])
  }

  /** The listing holds exactly the stored records, ordered by strictly increasing id. */
  lemma ListingIsExact(s: Store)
    requires KeysMatch(s)
    ensures forall o: Order :: o in ListOrders(s) <==> o.id in s && s[o.id] == o
    ensures forall i, j :: 0 <= i < j < |ListOrders(s)| ==> ListOrders(s)[i].id < ListOrders(s)[j].id
  {
    var r := ListOrders(s);
    var ids := SortedIds(s.Keys);
    forall o: Order | o.id in s && s[o.id] == o
      ensures o in r
    {
      var i :| 0 <= i < |ids| && ids[i] == o.id;
      assert r[i] == o;
    }
  }

  /** Every listed record of a well-formed store meets the column constraints. */
  lemma ListingValid(s: Store)
    requires WellFormed(s)
    ensures forall i :: 0 <= i < |ListOrders(s)| ==> Valid(ListOrders(s)[i])
  {
  }

  function IdsOf(xs: seq<Order>): set<int> {
    set i | 0 <= i < |xs| :: xs[i].id
  }

  /** `xs[i]` is the last record in `xs` carrying its id. */
  predicate LastWithId(xs: seq<Order>, i: int)
    requires 0 <= i < |xs|
  {
    forall j :: i < j < |xs| ==> xs[j].id != xs[i].id
  }

  /** `session.merge` of each record in turn: insert when the id is absent,
      overwrite every field when it is present. */
  function UpsertAll(s: Store, xs: seq<Order>): (r: Store)
    ensures MergedInto(s, xs, r)
    decreases |xs|
  {
    if |xs| == 0 then s
    else
      var r0 := UpsertAll(s, xs[..|xs| - 1]);
      UpsertStep(s, xs, r0);
      r0[xs[|xs| - 1].id := xs[|xs| - 1]]
  }

  /** `r` is `s` after merging `xs` in order: the keys of both, untouched records
      kept, and each id holding the last record in `xs` that carries it. */
  ghost predicate MergedInto(s: Store, xs: seq<Order>, r: Store) {
    && r.Keys == s.Keys + IdsOf(xs)
    && (forall k :: k in s && k !in IdsOf(xs) ==> r[k] == s[k])
    && (forall i :: 0 <= i < |xs| && LastWithId(xs, i) ==> r[xs[i].id] == xs[i])
  }

  lemma UpsertStep(s: Store, xs: seq<Order>, r0: Store)
    requires |xs| > 0
    requires MergedInto(s, xs[..|xs| - 1], r0)
    ensures MergedInto(s, xs, r0[xs[|xs| - 1].id := xs[|xs| - 1]])
  {
    var init := xs[..|xs| - 1];
    var last := xs[|xs| - 1];
    var r := r0[last.id := last];
    SplitLast(xs);
    forall k | k in s && k !in IdsOf(xs)
      ensures r[k] == s[k]
    {
      assert k !in IdsOf(init) && k != last.id;
    }
    forall i | 0 <= i < |xs| && LastWithId(xs, i)
      ensures r[xs[i].id] == xs[i]
    {
      if i < |xs| - 1 {
        assert LastWithId(init, i) && xs[i].id != last.id;
        assert init[i] == xs[i];
      }
    }
  }

  /** How the ids and last occurrences of `xs` relate to those of all but its last record. */
  lemma SplitLast(xs: seq<Order>)
    requires |xs| > 0
    ensures IdsOf(xs) == IdsOf(xs[..|xs| - 1]) + {xs[|xs| - 1].id}
    ensures forall i :: 0 <= i < |xs| - 1 && LastWithId(xs, i) ==> LastWithId(xs[..|xs| - 1], i) && xs[i].id != xs[|xs| - 1].id
  {
    var init := xs[..|xs| - 1];
    assert forall i :: 0 <= i < |init| ==> init[i] == xs[i];
    assert IdsOf(xs) == IdsOf(init) + {xs[|xs| - 1].id} by {
      forall k | k in IdsOf(xs)
        ensures k in IdsOf(init) + {xs[|xs| - 1].id}
      {
        var i :| 0 <= i < |xs| && xs[i].id == k;
        if i < |init| {
          assert init[i].id == k;
        }
      }
      forall k | k in IdsOf(init)
        ensures k in IdsOf(xs)
      {
        var i :| 0 <= i < |init| && init[i].id == k;
        assert xs[i].id == k;
      }
    }
  }

  /** Merging records that keep their keys preserves the key/id correspondence. */
  lemma UpsertAllKeysMatch(s: Store, xs: seq<Order>)
    requires KeysMatch(s)
    ensures KeysMatch(UpsertAll(s, xs))
  {
    var r := UpsertAll(s, xs);
    forall k | k in r
      ensures r[k].id == k
    {
      if k !in IdsOf(xs) {
      } else {
        var i :| 0 <= i < |xs| && xs[i].id == k;
        var j := LastIndex(xs, i);
      }
    }
  }

  /** The position of the last record with the same id as `xs[i]`. */
  function LastIndex(xs: seq<Order>, i: int): (j: int)
    requires 0 <= i < |xs|
    ensures i <= j < |xs| && xs[j].id == xs[i].id && LastWithId(xs, j)
    decreases |xs| - i
  {
    if exists j :: i < j < |xs| && xs[j].id == xs[i].id then
      var j :| i < j < |xs| && xs[j].id == xs[i].id;
      LastIndex(xs, j)
    else i
  }

  /** Records whose ids follow a strictly increasing sequence: each is the
      last, and only, record with its id, and the ids are those of the sequence. */
  lemma IncreasingIds(xs: seq<Order>, ids: seq<int>)
    requires |xs| == |ids| && StrictlyIncreasing(ids)
    requires forall i :: 0 <= i < |xs| ==> xs[i].id == ids[i]
    ensures forall i :: 0 <= i < |xs| ==> LastWithId(xs, i)
    ensures IdsOf(xs) == set i | 0 <= i < |ids| :: ids[i]
  {
  }

  /** Merging records with distinct ids is a map union with the records winning. */
  lemma UpsertDistinct(s: Store, xs: seq<Order>, u: Store)
    requires forall i :: 0 <= i < |xs| ==> LastWithId(xs, i)
    requires u.Keys == IdsOf(xs)
    requires forall i :: 0 <= i < |xs| ==> u[xs[i].id] == xs[i]
    ensures UpsertAll(s, xs) == s + u
  {
    var r := UpsertAll(s, xs);
    forall k | k in r
      ensures r[k] == (s + u)[k]
    {
      if k in IdsOf(xs) {
        var i :| 0 <= i < |xs| && xs[i].id == k;
      }
    }
    MapsEqual(r, s + u);
  }

  lemma MapsEqual(a: Store, b: Store)
    requires a.Keys == b.Keys
    requires forall k :: k in a ==> a[k] == b[k]
    ensures a == b
  {
    assert forall k :: k in a <==> k in b;
    assert forall k :: k in a ==> a[k] == b[k];
  }

  /** Merging the listing of `t`, each record mapped by an id-preserving `f`,
      into `s` yields `s` overridden by `t`. */
  lemma UpsertListing(s: Store, t: Store, f: Order -> Order)
    requires KeysMatch(t)
    requires forall o :: f(o).id == o.id
    ensures UpsertAll(s, MapOrders(f, ListOrders(t))) == Override(s, t, f)
  {
    ListingShape(t, f);
    UpsertSorted(s, t, f, MapOrders(f, ListOrders(t)), SortedIds(t.Keys));
  }

  lemma ListingShape(t: Store, f: Order -> Order)
    requires KeysMatch(t)
    requires forall o :: f(o).id == o.id
    ensures var xs := MapOrders(f, ListOrders(t));
      var ids := SortedIds(t.Keys);
      && |xs| == |ids|
      && StrictlyIncreasing(ids)
      && (forall k :: k in t <==> k in ids)
      && forall i :: 0 <= i < |xs| ==> ids[i] in t && xs[i] == f(t[ids[i]]) && xs[i].id == ids[i]
  {
  }

  lemma UpsertSorted(s: Store, t: Store, f: Order -> Order, xs: seq<Order>, ids: seq<int>)
    requires |xs| == |ids| && StrictlyIncreasing(ids)
    requires forall k :: k in t <==> k in ids
    requires forall i :: 0 <= i < |xs| ==> ids[i] in t && xs[i] == f(t[ids[i]]) && xs[i].id == ids[i]
    ensures UpsertAll(s, xs) == Override(s, t, f)
  {
    var u := map k | k in t :: f(t[k]);
    IncreasingIds(xs, ids);
    assert u.Keys == IdsOf(xs) by {
      forall k | k in t
        ensures k in IdsOf(xs)
      {
        var i :| 0 <= i < |ids| && ids[i] == k;
        assert xs[i].id == k;
      }
    }
    UpsertDistinct(s, xs, u);
  }

  /** `s` with every record of `t`, mapped by `f`, written over it. */
  function Override(s: Store, t: Store, f: Order -> Order): (r: Store)
    ensures r.Keys == s.Keys + t.Keys
    ensures forall k :: k in t ==> r[k] == f(t[k])
    ensures forall k :: k in s && k !in t ==> r[k] == s[k]
  {
    s + map k | k in t :: f(t[k])
  }

  function MapOrders(f: Order -> Order, xs: seq<Order>): (r: seq<Order>)
    ensures |r| == |xs| && forall i :: 0 <= i < |xs| ==> r[i] == f(xs[i])
  {
    seq(|xs|, i requires 0 <= i < |xs| => f(xs[i]))
  }

  /** The values of `rs` when all succeeded, else the first failure. */
  function Collect(rs: seq<Result<Order, Error>>): (r: Result<seq<Order>, Error>)
    ensures r.Success? <==> forall i :: 0 <= i < |rs| ==> rs[i].Success?
    ensures r.Success? ==> |r.value| == |rs| && forall i :: 0 <= i < |rs| ==> r.value[i] == rs[i].value
    ensures r.Failure? ==> exists i :: 0 <= i < |rs| && rs[i] == Failure(r.error)
    decreases |rs|
  {
    if |rs| == 0 then Success([])
    else
      var init := rs[..|rs| - 1];
      assert forall i :: 0 <= i < |init| ==> init[i] == rs[i];
      match Collect(init)
      case Failure(e) => Failure(e)
      case Success(orders) =>
        match rs[|rs| - 1]
        case Failure(e) => Failure(e)
        case Success(o) => Success(orders + [o])
  }

  /** The import codecs: merge every record, then one commit. The commit fails,
      and nothing is written, when a merged record breaks a column constraint,
      or when two records carry an id that is not stored yet: the session does
      not flush before `merge`, so the second `merge` cannot find the first
      record's pending row and the commit inserts the id twice. */
  function MergeAndCommit(s: Store, xs: seq<Order>): (r: Reply<()>)
    ensures r.result.Failure? ==> r.store == s && r.result.error == ConstraintViolation
    ensures r.result.Success? ==> r.store == UpsertAll(s, xs)
    ensures r.result.Success? <==>
      && NoPendingRepeats(s, xs)
      && forall i :: 0 <= i < |xs| && LastWithId(xs, i) ==> Valid(xs[i])
    ensures r.result.Success? && WellFormed(s) ==> WellFormed(r.store)
  {
    var merged := UpsertAll(s, xs);
    if NoPendingRepeats(s, xs) && forall i :: 0 <= i < |xs| && LastWithId(xs, i) ==> Valid(xs[i]) then
      MergedValid(s, xs);
      Reply(merged, Success(()))
    else
      Reply(s, Failure(ConstraintViolation))
  }

  /** Every id that `xs` carries twice is already stored. */
  predicate NoPendingRepeats(s: Store, xs: seq<Order>) {
    forall i, j :: 0 <= i < j < |xs| && xs[i].id == xs[j].id ==> xs[i].id in s
  }

  /** Commits the records a codec decoded, or reports its decoding error
      and leaves the store as it was. */
  function CommitRecords(s: Store, decoded: Result<seq<Order>, Error>): (r: Reply<()>)
    ensures r.result.Failure? ==> r.store == s
    ensures decoded.Failure? ==> r == Reply(s, Failure(decoded.error))
    ensures decoded.Success? ==> r == MergeAndCommit(s, decoded.value)
  {
    match decoded
    case Failure(e) => Reply(s, Failure(e))
    case Success(orders) => MergeAndCommit(s, orders)
  }

  /** Committing the listing of a well-formed `t`, each record mapped by an
      id-preserving `f` that keeps the column constraints, succeeds and
      overrides `s` with `t`. */
  lemma CommitOverride(s: Store, t: Store, f: Order -> Order, decoded: Result<seq<Order>, Error>)
    requires WellFormed(t)
    requires forall o :: f(o).id == o.id
    requires forall o :: Valid(o) ==> Valid(f(o))
    requires decoded == Success(MapOrders(f, ListOrders(t)))
    ensures CommitRecords(s, decoded) == Reply(Override(s, t, f), Success(()))
  {
    var xs := MapOrders(f, ListOrders(t));
    ListingValid(t);
    assert forall i :: 0 <= i < |xs| ==> Valid(xs[i]);
    ListingNoRepeats(s, t, f);
    UpsertListing(s, t, f);
  }

  /** Committing the listing of a well-formed `t` as it is succeeds and
      overrides `s` with `t`. */
  lemma CommitListing(s: Store, t: Store)
    requires WellFormed(t)
    ensures CommitRecords(s, Success(ListOrders(t))) == Reply(s + t, Success(()))
  {
    ListingAsIs(t);
    CommitOverride(s, t, Same, Success(ListOrders(t)));
    OverrideSame(s, t);
  }

  /** A store of one valid record is well-formed, and merging it into an
      empty store gives it back. */
  lemma SingleStore(o: Order)
    requires Valid(o)
    ensures WellFormed(map[o.id := o])
    ensures map[] + map[o.id := o] == map[o.id := o]
  {
    MapsEqual(map[] + map[o.id := o], map[o.id := o]);
  }

  function Same(o: Order): Order {
    o
  }

  lemma ListingAsIs(t: Store)
    ensures MapOrders(Same, ListOrders(t)) == ListOrders(t)
  {
  }

  lemma OverrideSame(s: Store, t: Store)
    ensures Override(s, t, Same) == s + t
  {
    MapsEqual(Override(s, t, Same), s + t);
  }

  /** The listing carries each id once, and so does its image under an
      id-preserving map: merging it never inserts an id twice. */
  lemma ListingNoRepeats(s: Store, t: Store, f: Order -> Order)
    requires KeysMatch(t)
    requires forall o :: f(o).id == o.id
    ensures NoPendingRepeats(s, MapOrders(f, ListOrders(t)))
  {
    var ys := ListOrders(t);
    var xs := MapOrders(f, ys);
    ListingIsExact(t);
    forall i, j | 0 <= i < j < |xs|
      ensures xs[i].id != xs[j].id
    {
      assert xs[i].id == ys[i].id && xs[j].id == ys[j].id;
    }
  }

  lemma MergedValid(s: Store, xs: seq<Order>)
    requires forall i :: 0 <= i < |xs| && LastWithId(xs, i) ==> Valid(xs[i])
    ensures WellFormed(s) ==> WellFormed(UpsertAll(s, xs))
  {
    if WellFormed(s) {
      UpsertAllKeysMatch(s, xs);
      var r := UpsertAll(s, xs);
      forall k | k in r
        ensures Valid(r[k])
      {
        if k in IdsOf(xs) {
          var i :| 0 <= i < |xs| && xs[i].id == k;
          var j := LastIndex(xs, i);
        }
      }
    }
  }
}

=== FILE: text.dfy ===
/**
 Decimal text for integers: Python's `str(int)` and a restricted `int(text)`,
 which the XML codec uses for the `id` field and the repository uses in its
 not-found messages.
 */
module Text {
  import opened Wrappers

  predicate IsDigit(c: char) {
    '0' <= c <= '9'
  }

  predicate AllDigits(s: string) {
    forall i :: 0 <= i < |s| ==> IsDigit(s[i])
  }

  /** The accepted integer literals: an optional sign followed by at least one digit. */
  predicate IsIntegerLiteral(s: string) {
    || (|s| > 0 && AllDigits(s))
    || (|s| > 1 && (s[0] == '-' || s[0] == '+') && AllDigits(s[1..]))
  }

  function DigitChar(d: int): (c: char)
    requires 0 <= d < 10
    ensures IsDigit(c) && DigitValue(c) == d
  {
    ('0' as int + d) as char
  }

  function DigitValue(c: char): int
    requires IsDigit(c)
  {
    c as int - '0' as int
  }

  /** The decimal digits of `n`, most significant first, without leading zeros. */
  function NatToString(n: nat): (s: string)
    ensures |s| > 0 && AllDigits(s)
    ensures n > 0 ==> s[0] != '0'
    decreases n
  {
    if n < 10 then [DigitChar(n)] else NatToString(n / 10) + [DigitChar(n % 10)]
  }

  /** Python's `str(n)` for an integer. */
  function IntToString(n: int): (s: string)
    ensures IsIntegerLiteral(s)
    ensures s[0] == '-' <==> n < 0
  {
    if n < 0 then "-" + NatToString(-n) else NatToString(n)
  }

  /** The value of a string of decimal digits. */
  function DigitsValue(s: string): nat
    requires AllDigits(s)
    decreases |s|
  {
    if |s| == 0 then 0 else DigitsValue(s[..|s| - 1]) * 10 + DigitValue(s[|s| - 1])
  }

  /** Python's `int(text)`, restricted to an optional sign and ASCII digits. */
  function ParseInt(s: string): (r: Option<int>)
    ensures r.Some? <==> IsIntegerLiteral(s)
  {
    if |s| > 0 && AllDigits(s) then Some(DigitsValue(s))
    else if |s| > 1 && s[0] == '-' && AllDigits(s[1..]) then Some(-(DigitsValue(s[1..]) as int))
    else if |s| > 1 && s[0] == '+' && AllDigits(s[1..]) then Some(DigitsValue(s[1..]))
    else None
  }

  lemma {:induction false} NatToStringValue(n: nat)
    ensures DigitsValue(NatToString(n)) == n
    decreases n
  {
    if n >= 10 {
      var s := NatToString(n);
      NatToStringValue(n / 10);
      assert s[..|s| - 1] == NatToString(n / 10);
    }
  }

  /** Reading back the text of an integer yields the integer. */
  lemma IntToStringRoundTrip(n: int)
    ensures ParseInt(IntToString(n)) == Some(n)
  {
    if n < 0 {
      NatToStringValue(-n);
      assert IntToString(n)[1..] == NatToString(-n);
    } else {
      NatToStringValue(n);
    }
  }
}

=== FILE: wrappers.dfy ===
/** Failure-compatible wrappers used throughout the order-store model. */
module Wrappers {

  /** An optional value: Python's `None` versus a present value. */
  datatype Option<+T> = None | Some(value: T) {

    /** Returns the value, or `default` when absent. */
    function GetOr(default: T): T {
      match this
      case Some(v) => v
      case None => default
    }

    /** Converts an absent value into the given failure. */
    function ToResult<E>(error: E): Result<T, E> {
      match this
      case Some(v) => Success(v)
      case None => Failure(error)
    }
  }

  /** Either a value or the error that an operation raised. */
  datatype Result<+T, +E> = Success(value: T) | Failure(error: E) {

    predicate IsFailure() {
      Failure?
    }

    function PropagateFailure<U>(): Result<U, E>
      requires Failure?
    {
      Failure(error)
    }

    function Extract(): T
      requires Success?
    {
      value
    }
  }
}

=== FILE: xml_codec.dfy ===
/**
 The XML codec. Export writes an `orders` root with one `order` element per
 record whose children are the `to_dict` fields, in order, each holding
 `str(value)`. Import reads every `order` element back, parses `id` as an
 integer and `creation_date` as a date, and merges the records by id with one
 commit at the end.
 */
module XmlCodec {
  import opened Wrappers
  import opened Text
  import opened Orders
  import opened OrderStore

  const RootTag := "orders"
  const OrderTag := "order"

  /** A leaf element: a tag and its text. */
  datatype Field = Field(tag: string, text: string)

  /** An element with leaf children. */
  datatype Element = Element(tag: string, children: seq<Field>)

  /** A document: the root tag and the root's children. */
  datatype Document = Document(rootTag: string, elements: seq<Element>)

  /** The `order` element of one record. */
  function OrderElement(o: Order, fmt: DateFormat): (e: Element)
    ensures e.tag == OrderTag && |e.children| == |FieldNames|
    ensures forall j :: 0 <= j < |FieldNames| ==> e.children[j].tag == FieldNames[j]
    ensures forall j :: 0 <= j < |FieldNames| ==> e.children[j].text == CellText(Cells(o)[j], fmt)
  {
    var cells := Cells(o);
    Element(OrderTag, seq(|FieldNames|, j requires 0 <= j < |FieldNames| => Field(FieldNames[j], CellText(cells[j], fmt))))
  }

  /** `export_orders_to_xml`: one `order` element per stored record, in listing order. */
  function ExportXml(s: Store, fmt: DateFormat): (d: Document)
    ensures d.rootTag == RootTag && |d.elements| == |s|
    ensures forall i :: 0 <= i < |d.elements| ==> d.elements[i] == OrderElement(ListOrders(s)[i], fmt)
  {
    var orders := ListOrders(s);
    Document(RootTag, seq(|orders|, i requires 0 <= i < |orders| => OrderElement(orders[i], fmt)))
  }

  /** `{child.tag: child.text for child in order_elem}[tag]`: when a tag repeats,
      the last child wins; a missing tag is absent. */
  function Lookup(fields: seq<Field>, tag: string): (r: Option<string>)
    ensures r.None? <==> forall i :: 0 <= i < |fields| ==> fields[i].tag != tag
    ensures r.Some? ==> exists i :: (0 <= i < |fields| && fields[i] == Field(tag, r.value)
      && forall j :: i < j < |fields| ==> fields[j].tag != tag)
    decreases |fields|
  {
    if |fields| == 0 then None
    else if fields[|fields| - 1].tag == tag then Some(fields[|fields| - 1].text)
    else Lookup(fields[..|fields| - 1], tag)
  }

  function Require(fields: seq<Field>, tag: string): (r: Result<string, Error>)
    ensures r.Failure? ==> r.error == KeyError(tag)
    ensures r == Lookup(fields, tag).ToResult(KeyError(tag))
  {
    Lookup(fields, tag).ToResult(KeyError(tag))
  }

  /** One `order` element to a record, in the order the source reads the
      fields: `id` through `int`, `creation_date` through the date parser, then
      `name`, `description` and `status` as text. A missing child is a key
      error; an unreadable id or date is malformed. */
  function ParseOrder(e: Element, fmt: DateFormat): (r: Result<Order, Error>)
    ensures Lookup(e.children, "id").None? ==> r == Failure(KeyError("id"))
    ensures Lookup(e.children, "id").Some? && !IsIntegerLiteral(Lookup(e.children, "id").value) ==> r.Failure? && r.error.Malformed?
    ensures r.Success? ==> r.value.description.Some?
  {
    var idText :- Require(e.children, "id");
    var id :- ParseInt(idText).ToResult(Malformed("invalid literal for int(): " + idText));
    var dateText :- Require(e.children, "creation_date");
    var date :- fmt.parse(dateText).ToResult(Malformed("unparseable creation_date: " + dateText));
    var name :- Require(e.children, "name");
    var description :- Require(e.children, "description");
    var status :- Require(e.children, "status");
    Success(Order(id, name, Some(description), date, status))
  }

  /** A parsed record holds exactly the texts of its element's children:
      every field is present, the id and date texts read back as its id and
      date, and the other fields are the texts themselves. */
  lemma ParsedFields(e: Element, fmt: DateFormat)
    requires ParseOrder(e, fmt).Success?
    ensures var o := ParseOrder(e, fmt).value;
      && Lookup(e.children, "id").Some? && ParseInt(Lookup(e.children, "id").value) == Some(o.id)
      && Lookup(e.children, "creation_date").Some? && fmt.parse(Lookup(e.children, "creation_date").value) == Some(o.creationDate)
      && Lookup(e.children, "name") == Some(o.name)
      && Lookup(e.children, "description") == o.description
      && Lookup(e.children, "status") == Some(o.status)
  {
  }

  /** `root.findall('order')`: the root's children tagged `order`, in document order. */
  function OrderElements(es: seq<Element>): (r: seq<Element>)
    ensures forall i :: 0 <= i < |r| ==> r[i].tag == OrderTag && r[i] in es
    ensures forall e :: e in es && e.tag == OrderTag ==> e in r
    ensures (forall i :: 0 <= i < |es| ==> es[i].tag == OrderTag) ==> r == es
    ensures |es| == 1 ==> r == (if es[0].tag == OrderTag then es else [])
    decreases |es|
  {
    if |es| == 0 then []
    else
      var init := es[..|es| - 1];
      var last := es[|es| - 1];
      assert es == init + [last];
      OrderElements(init) + (if last.tag == OrderTag then [last] else [])
  }

  /** The selection distributes over concatenation: with the one-element
      case above, it keeps every `order` child once, in document order. */
  lemma {:induction false} OrderElementsConcat(a: seq<Element>, b: seq<Element>)
    ensures OrderElements(a + b) == OrderElements(a) + OrderElements(b)
    decreases |b|
  {
    if |b| == 0 {
      assert a + b == a;
    } else {
      var init := b[..|b| - 1];
      var last := b[|b| - 1];
      assert (a + b)[..|a + b| - 1] == a + init;
      assert b[..|b| - 1] == init;
      OrderElementsConcat(a, init);
    }
  }

  /** Parses every element, stopping at the first failure. */
  function ParseAll(es: seq<Element>, fmt: DateFormat): (r: Result<seq<Order>, Error>)
    ensures r.Success? <==> forall i :: 0 <= i < |es| ==> ParseOrder(es[i], fmt).Success?
    ensures r.Success? ==> |r.value| == |es| && forall i :: 0 <= i < |es| ==> r.value[i] == ParseOrder(es[i], fmt).value
    ensures r.Failure? ==> exists i :: 0 <= i < |es| && ParseOrder(es[i], fmt) == Failure(r.error)
  {
    var rs := seq(|es|, i requires 0 <= i < |es| => ParseOrder(es[i], fmt));
    assert forall i :: 0 <= i < |es| ==> rs[i] == ParseOrder(es[i], fmt);
    Collect(rs)
  }

  /** `import_orders_from_xml`: merges every parsed record by id and commits
      once; any failure leaves the store as it was. */
  function ImportXml(d: Document, s: Store, fmt: DateFormat): (r: Reply<()>)
    ensures r.result.Failure? ==> r.store == s
    ensures ParseAll(OrderElements(d.elements), fmt).Failure? ==> r == Reply(s, Failure(ParseAll(OrderElements(d.elements), fmt).error))
    ensures r.result.Success? ==>
      var orders := ParseAll(OrderElements(d.elements), fmt).value;
      && r.store == UpsertAll(s, orders)
      && r.store.Keys == s.Keys + IdsOf(orders)
      && (forall k :: k in s && k !in IdsOf(orders) ==> r.store[k] == s[k])
    ensures r.result.Success? && WellFormed(s) ==> WellFormed(r.store)
  {
    CommitRecords(s, ParseAll(OrderElements(d.elements), fmt))
  }

  /** What a record becomes after the round trip: a null description comes
      back as the text `None`. */
  function NullAsText(o: Order): (r: Order)
    ensures r.id == o.id && r.name == o.name && r.creationDate == o.creationDate && r.status == o.status
    ensures r.description == Some(if o.description.Some? then o.description.value else NullText)
  {
    o.(description := Some(o.description.GetOr(NullText)))
  }

  lemma LookupOrderElement(o: Order, fmt: DateFormat, j: int)
    requires 0 <= j < |FieldNames|
    ensures Lookup(OrderElement(o, fmt).children, FieldNames[j]) == Some(CellText(Cells(o)[j], fmt))
  {
    var fields := OrderElement(o, fmt).children;
    assert fields == fields[..j + 1] + fields[j + 1..];
    assert forall i, k :: 0 <= i < k < |FieldNames| ==> FieldNames[i] != FieldNames[k];
    LookupSuffix(fields, j, FieldNames[j]);
  }

  lemma {:induction false} LookupSuffix(fields: seq<Field>, j: int, tag: string)
    requires 0 <= j < |fields| && fields[j].tag == tag
    requires forall k :: j < k < |fields| ==> fields[k].tag != tag
    ensures Lookup(fields, tag) == Some(fields[j].text)
    decreases |fields|
  {
    if j < |fields| - 1 {
      LookupSuffix(fields[..|fields| - 1], j, tag);
    }
  }

  /** Reading back an exported element gives the record with a null
      description turned into the text `None`. */
  lemma ParseOrderElement(o: Order, fmt: DateFormat)
    requires RoundTrips(fmt)
    ensures ParseOrder(OrderElement(o, fmt), fmt) == Success(NullAsText(o))
  {
    ExportedTexts(o, fmt);
    ParseFromTexts(OrderElement(o, fmt), o, fmt);
  }

  /** The children of an exported element, looked up by tag. */
  lemma ExportedTexts(o: Order, fmt: DateFormat)
    ensures var fields := OrderElement(o, fmt).children;
      && Lookup(fields, "id") == Some(IntToString(o.id))
      && Lookup(fields, "name") == Some(o.name)
      && Lookup(fields, "description") == Some(o.description.GetOr(NullText))
      && Lookup(fields, "creation_date") == Some(fmt.show(o.creationDate))
      && Lookup(fields, "status") == Some(o.status)
  {
    LookupOrderElement(o, fmt, IdField);
    LookupOrderElement(o, fmt, NameField);
    LookupOrderElement(o, fmt, DescriptionField);
    LookupOrderElement(o, fmt, DateField);
    LookupOrderElement(o, fmt, StatusField);
  }

  /** An element whose children hold the texts of `o`'s fields parses to `o`,
      with a null description read as the text `None`. */
  lemma ParseFromTexts(e: Element, o: Order, fmt: DateFormat)
    requires RoundTrips(fmt)
    requires Lookup(e.children, "id") == Some(IntToString(o.id))
    requires Lookup(e.children, "name") == Some(o.name)
    requires Lookup(e.children, "description") == Some(o.description.GetOr(NullText))
    requires Lookup(e.children, "creation_date") == Some(fmt.show(o.creationDate))
    requires Lookup(e.children, "status") == Some(o.status)
    ensures ParseOrder(e, fmt) == Success(NullAsText(o))
  {
    IntToStringRoundTrip(o.id);
    assert fmt.parse(fmt.show(o.creationDate)) == Some(o.creationDate);
  }

  /** Export then import merges every stored record back under its id, with
      `id`, `name`, `creation_date` and `status` reproduced exactly and a null
      description turned into `None`; records only in `s` are untouched. */
  lemma XmlRoundTrip(s0: Store, s: Store, fmt: DateFormat)
    requires WellFormed(s0)
    requires RoundTrips(fmt)
    ensures ImportXml(ExportXml(s0, fmt), s, fmt) == Reply(Override(s, s0, NullAsText), Success(()))
  {
    ExportParses(s0, fmt);
    CommitOverride(s, s0, NullAsText, ParseAll(OrderElements(ExportXml(s0, fmt).elements), fmt));
  }

  /** Every exported element parses, giving the listing with null descriptions as text. */
  lemma ExportParses(s0: Store, fmt: DateFormat)
    requires RoundTrips(fmt)
    ensures ParseAll(OrderElements(ExportXml(s0, fmt).elements), fmt) == Success(MapOrders(NullAsText, ListOrders(s0)))
  {
    var d := ExportXml(s0, fmt);
    var listed := ListOrders(s0);
    var expected := MapOrders(NullAsText, listed);
    assert OrderElements(d.elements) == d.elements;
    forall i | 0 <= i < |d.elements|
      ensures ParseOrder(d.elements[i], fmt) == Success(expected[i])
    {
      ParseOrderElement(listed[i], fmt);
    }
    ParseAllSucceeds(d.elements, fmt, expected);
  }

  lemma ParseAllSucceeds(es: seq<Element>, fmt: DateFormat, xs: seq<Order>)
    requires |es| == |xs|
    requires forall i :: 0 <= i < |es| ==> ParseOrder(es[i], fmt) == Success(xs[i])
    ensures ParseAll(es, fmt) == Success(xs)
  {
    var r := ParseAll(es, fmt);
    assert r.Success?;
    assert |r.value| == |xs|;
    assert forall i :: 0 <= i < |xs| ==> r.value[i] == xs[i];
    assert r.value == xs;
  }

  /** Importing an export into an empty store rebuilds the store, up to the
      null description. */
  lemma XmlRoundTripIntoEmpty(s0: Store, fmt: DateFormat)
    requires WellFormed(s0)
    requires RoundTrips(fmt)
    ensures var r := ImportXml(ExportXml(s0, fmt), map[], fmt);
      && r.result.Success?
      && r.store.Keys == s0.Keys
      && forall k :: k in s0 ==> r.store[k] == NullAsText(s0[k])
  {
    var t := Override(map[], s0, NullAsText);
    XmlRoundTrip(s0, map[], fmt);
    EmptyOverride(s0, t);
  }

  lemma EmptyOverride(s0: Store, t: Store)
    requires t == Override(map[], s0, NullAsText)
    ensures t.Keys == s0.Keys
    ensures forall k :: k in s0 ==> t[k] == NullAsText(s0[k])
  {
  }
}
